=== FILE: README.md ===
# mikrodns resolution engine in Dafny

mikrodns is a DNS server that doubles as a weighted load balancer. Each
domain maps to a set of candidates with integer weights. A candidate is
either an IP address or another domain name. A query for a known domain is
answered with one candidate, drawn by Vose's alias method. A query for an
unknown domain is forwarded upstream, to an address picked by suffix rules.

This project models the three pieces of that engine and proves properties
of them:

- `Vose` (`vose.dfy`) is the alias sampler of `ips/vose-random.go`:
  - `FlattenProbs` turns weights into a distribution;
  - `NewVoseRandom` builds the `table_prob` / `table_alias` tables with the
    small/large worklists;
  - `Next` reads one column.
  Probabilities are exact reals, and the main theorem is that the tables
  reproduce the input distribution.
- `Ips` (`ips.dfy`) is the routing table of `ips/ips.go`: the domain map
  `m` and the parallel sampler map `rndDomains`, with `Set`, `Unset`,
  `SetAll`, `GetAll`, `GetExact`, `Get` and `appendPeriod`. Each locked
  operation is one transition from one `Table` value to the next.
- `Dns` (`dns.dfy`) is the query logic of `dns/dns.go`: `suffixMatch`, the
  upstream choice of `doProxy`, and the decision tree of `handleRequest`.
- `Server` (`server.dfy`) connects `handleRequest` to the table through
  `ips.Get` as written, so the nil-sampler panic of `GetExact` (see
  "## Findings") reaches the handler.
- Supporting modules:
  - `Sums` (`sums.dfy`) holds exact sums over finite key sets;
  - `Strings` (`strings.dfy`) holds `strings.HasSuffix`;
  - `Wrappers` (`wrappers.dfy`) holds `Option`.

Go iterates maps in an unspecified order. Every loop over a map whose
result could depend on that order picks its next key with `:|`, so each
postcondition holds for every iteration order. The division loop of
`FlattenProbs` cannot depend on it and is a map comprehension.
The two random draws of `Next` become parameters: the column `k` and the
uniform value `u` in [0, 1). The DNS library and the network become the
oracles of `Dns.Env`:

- `net.ParseIP` is `parseIP`;
- `dns.Fqdn` is `fqdn`;
- `dns.NewRR` is `accepts`;
- `dns.Exchange` is `exchange`.

## Model

| member | source | states |
|---|---|---|
| Vose.FlattenProbs | ips/vose-random.go:29-41 | The result has exactly the input's keys. Each value is the weight divided by the total weight, which is positive when there are keys. Every value lies in (0, 1], and the values sum to 1. |
| Vose.SumWeights | ips/vose-random.go:31-34 | The first loop's integer total equals the exact sum of the weights, whatever order the map is iterated in. |
| Vose.Normalise | ips/vose-random.go:36-38 | Positive weights divided by their positive total give values in (0, 1] that sum to 1. |
| Vose.NewVoseRandom | ips/vose-random.go:43-94 | The built sampler keeps `dist` and has one column per key. Every alias is another key, and every probability lies in [0, 1]. A column without an alias has probability 1. For every key `x`, the columns together send `x` the mass `n * dist[x]`. With all probabilities equal there are no aliases and every probability is 1. |
| Vose.Classify | ips/vose-random.go:52-64 | `scaled_prob` is a copy of `dist`. Every key is pushed exactly once. A key goes on `large` exactly when its probability exceeds `1/n`, and on `small` otherwise. |
| Vose.PairingStart | ips/vose-random.go:52-66 | After classification, scaled by `n`, small keys hold at most 1 and large keys more than 1. The excesses over 1 cancel out. With all probabilities equal, `large` is empty, so the pairing loop never runs. |
| Vose.PairOff | ips/vose-random.go:66-81 | The pairing loop terminates. When it stops, every key not yet finished holds exactly the average, and the mass bookkeeping still balances. With equal probabilities no alias is set. |
| Vose.PairOnce | ips/vose-random.go:66-79 | One round of the pairing loop is exactly a `RoundStep` (see `Vose.PairRound`). It keeps the loop invariant and strictly shrinks `|small| + |large|`, so the loop terminates. |
| Vose.PairRound | ips/vose-random.go:67-79 | The round pops the last small key `s` and the last large key `l`. It sets `table_prob[s]` to `scaled_prob[s] * n` and `table_alias[s]` to `l`, and lowers `scaled_prob[l]` by what `s` lacked of the average. `l` is pushed back on `small` when it fell below the average, on `large` otherwise. No other entry or worklist position changes. |
| Vose.RoundBridge | ips/vose-random.go:72-79 | Measured in units of the average, the round gives `s` its scaled value as probability and moves `l` by the same amount. `l`'s worklist is chosen by the same comparison in those units, and the round shrinks the worklists. |
| Vose.PairStep | ips/vose-random.go:69-79 | The shape, bounds, zero total excess and mass balance of the pairing state are preserved by one round. |
| Vose.PairingEnd | ips/vose-random.go:66 | Once one worklist is empty, every key still unfinished holds exactly the average. |
| Vose.Settled | ips/vose-random.go:66 | With one worklist empty and the excesses summing to zero, every remaining excess is zero. |
| Vose.DrainAll | ips/vose-random.go:83-91 | Setting the leftovers of `large`, then of `small`, to probability 1 completes the tables: one column per key, valid aliases, and exactly `n * dist[x]` mass for each `x`. |
| Vose.Drain | ips/vose-random.go:83-91 | Each drain finishes every key on its worklist with probability 1, and that is exact because each such key holds the average. |
| Vose.Finish | ips/vose-random.go:83-93 | With both worklists drained, every key is a column, and the tables reproduce the distribution. |
| Vose.Next | ips/vose-random.go:96-114 | For the picked column `k` and a draw `u` in [0, 1), the result is `k` when `u <= table_prob[k]`. Otherwise it is `table_alias[k]`, which then exists. The result is always a key of `dist`. |
| Ips.AppendPeriod | ips/ips.go:118-123 | The result ends in `.`. The input is returned unchanged exactly when it already ends in `.`; otherwise the result is the input followed by one `.`. Normalising twice is therefore the same as normalising once. |
| Ips.AppendPeriodIdempotent | ips/ips.go:118-123 | Normalising twice is normalising once. |
| Ips.Rebuild | ips/ips.go:87 | `NewVoseRandom(FlattenProbs(res))` draws exactly the candidates of `res`, each with probability weight / total, and it can be drawn from. |
| Ips.Set | ips/ips.go:71-89 | With an empty domain nothing changes. Otherwise, for the normalised domain `d`: the entry exists afterwards and holds `weight` for `ip`; other candidates keep their weights; no other domain changes; only the sampler of `d` changes, rebuilt from the new weights. The table invariants and the trailing dot of every key are preserved. |
| Ips.Reweigh | ips/ips.go:78-87 | Storing a non-empty positive entry for `d` and rebuilding its sampler keeps the table consistent and synced. |
| Ips.Unset | ips/ips.go:103-116 | On an absent domain, nothing changes. Otherwise `ip` is removed from the entry. If no candidate is left, the domain leaves both maps. If candidates remain, the entry keeps them and only that domain's sampler is rebuilt, from the remaining weights. The invariants are preserved: consistent and synced tables (equal key sets, no empty entry) and fresh samplers. |
| Ips.Install | ips/ips.go:85-87 | Replacing one domain's entry and sampler by a matching pair keeps both maps consistent and keeps their key sets equal. |
| Ips.Uninstall | ips/ips.go:108-110 | Removing one domain from both maps keeps them consistent and keeps their key sets equal. |
| Ips.InstallFresh | ips/ips.go:85-87 | Replacing one domain's entry and sampler by a sampler built from that entry keeps every sampler fresh. |
| Ips.UninstallFresh | ips/ips.go:108-110 | Removing one domain from both maps keeps every sampler fresh. |
| Ips.UpdateFresh | ips/ips.go:75-87 | Any step that changes only one domain's entry and sampler, with the new sampler built from the new entry, keeps every domain's sampler built from its current candidates. `Set`'s postcondition is such a step. |
| Ips.SetFresh | ips/ips.go:71-89 | `Set` keeps every sampler fresh, and the normalised domain then holds `weight` for `ip`. |
| Ips.SetAll | ips/ips.go:92-100 | The mapping becomes exactly `m2`. Every domain of `m2` gets a sampler rebuilt from its weights, so every sampler of the new mapping is fresh. Samplers of domains not in `m2` stay as they were, so `rndDomains` is not reset. A consistent table stays consistent, and the result has equal key sets exactly when every earlier sampler's domain is in `m2`. |
| Ips.BuildSamplers | ips/ips.go:96-99 | The loop builds a sampler for every domain of `m2`, in any order, and leaves all other samplers untouched. |
| Ips.Replace | ips/ips.go:95-99 | After the loop the new maps are consistent when every earlier sampler was live, and the two key sets are equal exactly when the old sampler keys lie within `m2`. |
| Ips.GetAll | ips/ips.go:59-67 | The snapshot has the same keys and entries as the mapping. |
| Ips.CopyMapping | ips/ips.go:63-65 | The entry-by-entry copy loop yields the source map, whatever the iteration order. |
| Ips.Restore | ips/ips.go:59-100 | Feeding a `GetAll` snapshot to `SetAll` gives back the same mapping and the same sampler domains, and a synced table stays synced. |
| Ips.GetExactAsWritten | ips/ips.go:45-56 | The code as written reports "not found" exactly when the normalised domain has no entry. It reaches the nil sampler exactly when that entry exists but nothing is stored under the domain as given. A candidate it returns comes from the sampler stored under the domain as given. |
| Ips.GetExactUndotted | ips/ips.go:48-50 | In a table whose keys all end in `.`, asking the as-written code for a stored domain without its dot reaches the nil sampler. |
| Ips.SetThenGetExact | ips/ips.go:45-89 | `Set("a.com", "10.0.0.1", 1)` on the empty table, followed by `GetExact("a.com")`, calls `Next` on a nil sampler. |
| Ips.SetAllThenSetStale | ips/ips.go:48-50 | `SetAll` with `a.com` holding `old`, then `Set("a.com", "new", 1)`: the entry `a.com.` exists without `old`, yet `GetExact("a.com")` as written returns `old` from the sampler left under `a.com`. |
| Ips.SetAllUndotted | ips/ips.go:92-100 | `SetAll` with the single entry `a.com` holding `old` stores its sampler under `a.com`, not `a.com.`. That sampler has the one column `old` and draws nothing else. |
| Ips.SetOverUndotted | ips/ips.go:71-89 | `Set("a.com", "new", 1)` on that table creates the entry `a.com.` with `new` alone and leaves the sampler under `a.com` untouched. |
| Ips.GetExact | ips/ips.go:45-56 | The corrected lookup reports "not found" exactly when the normalised domain has no entry. Otherwise it returns one of that domain's candidates. |
| Ips.GetExactDotted | ips/ips.go:45-56 | On a domain that already ends in `.`, the as-written and corrected lookups give the same result. |
| Ips.Get | ips/ips.go:22-41 | `Get` over the corrected lookup: found exactly when the normalised domain has an entry. A found value is one of its candidates, and a miss returns `""`. |
| Ips.GetAsWritten | ips/ips.go:22-41 | `Get` over the as-written lookup panics exactly when the normalised domain has an entry but no sampler is stored under the domain as given. Otherwise it reports found exactly when the entry exists; a found value comes from the sampler under the domain as given, and a miss returns `""`. |
| Ips.GetDotted | ips/ips.go:22-56 | For a domain ending in `.`, the as-written `Get` never panics and returns what the corrected `Get` returns. |
| Dns.SuffixMatch | dns/dns.go:60-73 | Take all (question, rule) matches in scan order. The result is non-empty exactly when some match carries a non-empty address and, from the first such match on, every match carries that same address. The result is then the address of every match that has one. |
| Dns.MatchRules | dns/dns.go:63-70 | The rule loop for one question name, from the address taken so far. With no rule matching the name, it keeps that address. An address it switches to belongs to a rule whose suffix ends the name. An early return (`None`) needs a matching rule whose address differs from the one it started with. |
| Dns.MatchQuestions | dns/dns.go:62-71 | The question loop. With no (question, rule) match, it keeps the starting address. Any other address it ends on belongs to a rule whose suffix ends some question name. An early return needs a match whose address differs from the starting one. |
| Dns.QuestionsScan | dns/dns.go:62-71 | The two nested loops with their early return behave as one scan over the flattened list of matches. |
| Dns.RulesScan | dns/dns.go:63-70 | The rule loop for one question behaves as the scan over that question's matches. |
| Dns.ScanAgree | dns/dns.go:64-68 | The scan survives exactly when the matches agree with the address taken so far, and it ends on the last match. |
| Dns.MatchedAddrsMembers | dns/dns.go:62-64 | An address occurs among the matches exactly when some rule's suffix ends some question's name and that rule carries the address. |
| Dns.SuffixMatchNone | dns/dns.go:60-73 | When no rule's suffix ends any question name, the result is `""`. |
| Dns.SuffixMatchAmbiguous | dns/dns.go:64-67 | Two matches carrying different non-empty addresses give `""`, even when they come from different questions. |
| Dns.SuffixMatchSource | dns/dns.go:62-69 | A non-empty result is the address of a rule whose suffix ends one of the question names. |
| Dns.ForwardAddr | dns/dns.go:76-83 | A non-empty suffix result wins. When the suffix result is empty, the choice is exactly the default upstream if it is non-empty, and no upstream otherwise. A chosen upstream is never empty, and one that is not the default comes from a matching rule. |
| Dns.DoProxy | dns/dns.go:75-91 | At most one exchange is made. It is made exactly when an upstream is chosen, it sends `m` to that upstream, and the result is the exchange's reply. Without an upstream the result is nil. |
| Dns.NewQuery | dns/dns.go:116-117 | The sub-query asks exactly one question: type A for the given name. It holds no answers and is not a response. |
| Dns.SetReply | dns/dns.go:136 | The message becomes a reply to the request, with the same id, the response flag and the request's question, and keeps its answer section. |
| Dns.HandleRequest | dns/dns.go:93-175 | A request without a question panics at the first line and gets no answer; every other request ends in exactly one answer, either a written message or a failure for `r`, with at most one exchange. The three branches: (1) a candidate that parses as an IP gets a reply to `r` holding exactly `domain IN A ip`, or a failure if the record is rejected, with no exchange; (2) any other candidate makes one type-A sub-query for its FQDN, and the reply to `r` is the upstream answers with `domain IN CNAME ip` appended, or a failure without a reply or with a rejected record; (3) a miss forwards `r` itself and relays the upstream reply unchanged, or fails. |
| Server.Serve | dns/dns.go:95-105 | The handler runs on the as-written `Get` of the first question's name. No question: a panic. No entry for the normalised name: the miss branch. An entry but no sampler under the name as given: a panic inside `Get`, and no answer. Otherwise: the hit branch with a candidate of that sampler. |
| Server.ServedLocally | dns/dns.go:105-159 | A fully qualified name whose candidates are all IP addresses is answered, without any upstream exchange. A written answer is a reply holding one A record for one of the name's candidates. |
| Server.ServeUndotted | dns/dns.go:95-105 | In a table whose keys all end in `.`, a request for a stored name written without its `.` is never answered, because `Get` panics. |
| Server.Forwarded | dns/dns.go:161-174 | A name with no entry is forwarded unchanged to the chosen upstream. The upstream reply is relayed as it is, and the request fails exactly when there is no upstream or no reply. |

## Left out

- Timing, logging and the debug `Printf`s are observability only and have no model.
- The listeners and goroutines are not modelled. Each call of `handleRequest` is one function application.
- The `sync.RWMutex` is not modelled: each locked operation is a single atomic transition on a `Table` value.
- `math/rand` is replaced by the draw parameters `k` and `u`. Go's map iteration order is left nondeterministic.
- `float64` rounding is replaced by exact reals. The final drains to probability 1 are then exact rather than a rounding fix-up.
- Go's `int` is unbounded here, so an overflow of the weight total `totW` is not modelled.
- `net.ParseIP`, `dns.Fqdn`, `dns.NewRR` and `dns.Exchange` are oracles. `SetReply` models only the id, the response flag and the question section; other header fields of the miekg message are not represented. The sub-query's message id is fixed at 0.
- `http/http.go` is not part of this model. It parses requests, calls `GetAll`, `Set` and `Unset`, and serves a snapshot.
- Ips.Set: requires a positive weight. The Go code accepts any `int`, and a zero total makes `FlattenProbs` divide by zero.
- Vose.FlattenProbs: requires positive weights, for the same reason.
- Ips.SetAll: requires every entry of `m2` to have at least one candidate, all with positive weights. An empty entry would get an empty sampler, and drawing from it panics in `rand.Intn(0)`.
- Ips.GetAll: the Go snapshot shares its `*DomainEntry` pointers with the live map, so a later `Set` or `Unset` on the live table also changes the snapshot. Values have no aliasing, so that sharing is not modelled.
- Ips.Get: the per-candidate debug counter and its printout are dropped, here and in Ips.GetAsWritten.
- Dns.ForwardAddr: when the suffix rules disagree, the code falls back to the default upstream, because `suffixMatch` returns `""` and `doProxy` then tries `config.ForwardAddr`. It does not fail outright.
- Dns.DoProxy: requires a question once an upstream is chosen, because the Go code reads `m.Question[0]` for its log line.

## Findings

| source | as written | input that shows it | evidently intended | confidence | as-written member | corrected member |
|---|---|---|---|---|---|---|
| ips/ips.go:48-50 | `GetExact` checks `m[appendPeriod(domain)]` but then reads `rndDomains[domain]`, keyed by the domain as given | `Set("a.com", "10.0.0.1", 1)` then `GetExact("a.com")`: the entry `a.com.` exists, `rndDomains["a.com"]` is nil, and `Next` dereferences it. Also `SetAll` with an entry under `a.com` holding `old`, then `Set("a.com", "new", 1)`, then `GetExact("a.com")`: it draws `old` from the stale sampler, and `old` is not a candidate of `a.com.` | index `rndDomains[appendPeriod(domain)]` | not executed | Ips.GetExactAsWritten, Ips.SetThenGetExact, Ips.SetAllThenSetStale, Ips.GetAsWritten, Server.ServeUndotted | Ips.GetExact, Ips.Get |

=== FILE: dns.dfy ===
/** The query decision logic of `dns/dns.go`: suffix-based choice of the
    upstream address, the proxy step, and the decision tree of the request
    handler.

    The DNS library and the network are oracles gathered in `Env`: whether
    a string parses as an IP address, the library's `Fqdn`, whether the
    library accepts a resource record written out as text, and the upstream
    exchange, which yields a reply or fails. The routing-table lookup enters
    as its result. Timing and logging are left out. */
module Dns {
  import opened Wrappers
  import opened Strings

  /** Record and question types the handler builds; upstream replies may
      carry any other type. */
  datatype RRType = A | CNAME | Other(code: nat)

  /** A resource record `name IN type data`. */
  datatype RR = RR(name: string, rrtype: RRType, data: string)

  datatype Question = Question(name: string, qtype: RRType)

  /** The parts of a DNS message the handler reads or writes. */
  datatype Msg = Msg(id: int, response: bool, question: seq<Question>, answer: seq<RR>)

  /** One forwarding rule: names ending in `suffix` go to `forwardAddr`. */
  datatype ForwardSuffix = ForwardSuffix(suffix: string, forwardAddr: string)

  /** The configuration the handler reads: the default upstream and the
      ordered suffix rules. */
  datatype Config = Config(forwardAddr: string, forwardSuffixes: seq<ForwardSuffix>)

  /** The library and network calls, as oracles. `accepts(rr)` says that the
      library parses the text of `rr` (into `rr` itself). */
  datatype Env = Env(
    parseIP: string -> bool,
    fqdn: string -> string,
    accepts: RR -> bool,
    exchange: (Msg, string) -> Option<Msg>)

  /** One upstream exchange: the message sent and where to. */
  datatype Query = Query(msg: Msg, addr: string)

  /** `doProxy`'s effect: the exchanges it made and the reply (`None` for
      Go's nil). */
  datatype Proxied = Proxied(sent: seq<Query>, reply: Option<Msg>)

  /** How a request ends: answered with `w.WriteMsg(msg)`, answered with
      `dns.HandleFailed(w, request)`, or not answered at all because the
      handler panicked. */
  datatype Answer = Write(msg: Msg) | Failed(request: Msg) | Panicked

  /** `handleRequest`'s effect: the upstream exchanges and the one answer. */
  datatype Handled = Handled(sent: seq<Query>, answer: Answer)

  // ---------------------------------------------------------------------
  // suffixMatch

  /** The inner loop of `suffixMatch` over the rules, for one question name,
      from the address taken so far; `None` is the early return of `""`. */
  function MatchRules(name: string, rules: seq<ForwardSuffix>, addr: string): (r: Option<string>)
    ensures (forall i :: 0 <= i < |rules| ==> !HasSuffix(name, rules[i].suffix)) ==> r == Some(addr)
    ensures r.Some? && r.value != addr ==>
      exists i :: 0 <= i < |rules| && HasSuffix(name, rules[i].suffix) && rules[i].forwardAddr == r.value
    ensures r.None? ==>
      exists i :: 0 <= i < |rules| && HasSuffix(name, rules[i].suffix) && rules[i].forwardAddr != addr
    decreases |rules|
  {
    if rules == [] then Some(addr)
    else if HasSuffix(name, rules[0].suffix) then
      if addr != "" && addr != rules[0].forwardAddr then None
      else MatchRules(name, rules[1..], rules[0].forwardAddr)
    else MatchRules(name, rules[1..], addr)
  }

  /** The outer loop of `suffixMatch` over the questions. */
  function MatchQuestions(qs: seq<Question>, rules: seq<ForwardSuffix>, addr: string): (r: Option<string>)
    ensures (forall i, j :: 0 <= i < |qs| && 0 <= j < |rules| ==> !HasSuffix(qs[i].name, rules[j].suffix)) ==>
      r == Some(addr)
    ensures r.Some? && r.value != addr ==>
      exists i, j :: 0 <= i < |qs| && 0 <= j < |rules| &&
        HasSuffix(qs[i].name, rules[j].suffix) && rules[j].forwardAddr == r.value
    ensures r.None? ==>
      exists i, j :: 0 <= i < |qs| && 0 <= j < |rules| &&
        HasSuffix(qs[i].name, rules[j].suffix) && rules[j].forwardAddr != addr
    decreases |qs|
  {
    if qs == [] then Some(addr)
    else match MatchRules(qs[0].name, rules, addr)
      case None => None
      case Some(a) => MatchQuestions(qs[1..], rules, a)
  }

  /** The addresses of the rules matching `name`, in rule order. */
  function RuleAddrs(name: string, rules: seq<ForwardSuffix>): seq<string>
    decreases |rules|
  {
    if rules == [] then []
    else
      var here := if HasSuffix(name, rules[0].suffix) then [rules[0].forwardAddr] else [];
      here + RuleAddrs(name, rules[1..])
  }

  /** Every (question, rule) match in scan order, as its address. */
  function MatchedAddrs(qs: seq<Question>, rules: seq<ForwardSuffix>): seq<string>
    decreases |qs|
  {
    if qs == [] then [] else RuleAddrs(qs[0].name, rules) + MatchedAddrs(qs[1..], rules)
  }

  /** Once a non-empty address occurs, every later one repeats it. */
  predicate Agree(addrs: seq<string>)
  {
    forall i, j :: 0 <= i < j < |addrs| && addrs[i] != "" ==> addrs[j] == addrs[i]
  }

  /** `suffixMatch`: the address the suffix rules agree on. It is non-empty
      exactly when some match carries a non-empty address and, from the
      first such match on, every match carries that same address; it is
      then the address of every match that has one. */
  function SuffixMatch(m: Msg, rules: seq<ForwardSuffix>): (r: string)
    ensures var addrs := MatchedAddrs(m.question, rules);
      r != "" <==> Agree(addrs) && exists i :: 0 <= i < |addrs| && addrs[i] != ""
    ensures var addrs := MatchedAddrs(m.question, rules);
      r != "" ==> forall i :: 0 <= i < |addrs| && addrs[i] != "" ==> addrs[i] == r
  {
    var addrs := MatchedAddrs(m.question, rules);
    QuestionsScan(m.question, rules, "");
    ScanAgree("", addrs);
    AgreeFromEmpty(addrs);
    match MatchQuestions(m.question, rules, "")
    case None => ""
    case Some(a) => a
  }

  /** The scan of `suffixMatch` over the flattened matches. */
  function Scan(addr: string, addrs: seq<string>): Option<string>
    decreases |addrs|
  {
    if addrs == [] then Some(addr)
    else if addr != "" && addr != addrs[0] then None
    else Scan(addrs[0], addrs[1..])
  }

  /** The rule loop is the scan over that question's matches. */
  lemma {:induction false} RulesScan(name: string, rules: seq<ForwardSuffix>, addr: string)
    ensures MatchRules(name, rules, addr) == Scan(addr, RuleAddrs(name, rules))
    decreases |rules|
  {
    if rules != [] {
      RulesScan(name, rules[1..], rules[0].forwardAddr);
      RulesScan(name, rules[1..], addr);
      if HasSuffix(name, rules[0].suffix) {
        var rest := RuleAddrs(name, rules[1..]);
        assert RuleAddrs(name, rules) == [rules[0].forwardAddr] + rest;
        assert ([rules[0].forwardAddr] + rest)[1..] == rest;
      } else {
        assert RuleAddrs(name, rules) == RuleAddrs(name, rules[1..]);
      }
    }
  }

  /** Scanning a concatenation scans the second part from where the first
      stopped. */
  lemma {:induction false} ScanAppend(addr: string, xs: seq<string>, ys: seq<string>)
    ensures Scan(addr, xs + ys) == match Scan(addr, xs)
      case None => None
      case Some(a) => Scan(a, ys)
    decreases |xs|
  {
    if xs == [] {
      assert xs + ys == ys;
    } else {
      assert (xs + ys)[0] == xs[0];
      assert (xs + ys)[1..] == xs[1..] + ys;
      ScanAppend(xs[0], xs[1..], ys);
    }
  }

  /** The question loop is the scan over all matches. */
  lemma {:induction false} QuestionsScan(qs: seq<Question>, rules: seq<ForwardSuffix>, addr: string)
    ensures MatchQuestions(qs, rules, addr) == Scan(addr, MatchedAddrs(qs, rules))
    decreases |qs|
  {
    if qs != [] {
      RulesScan(qs[0].name, rules, addr);
      ScanAppend(addr, RuleAddrs(qs[0].name, rules), MatchedAddrs(qs[1..], rules));
      match MatchRules(qs[0].name, rules, addr)
      case None =>
      case Some(a) =>
        QuestionsScan(qs[1..], rules, a);
    }
  }

  /** The scan succeeds exactly when the matches, preceded by the address
      already taken, agree; it then ends on the last of them. */
  lemma {:induction false} ScanAgree(addr: string, addrs: seq<string>)
    ensures Scan(addr, addrs).Some? <==> Agree([addr] + addrs)
    ensures Scan(addr, addrs).Some? ==> Scan(addr, addrs).value == ([addr] + addrs)[|addrs|]
    decreases |addrs|
  {
    if addrs != [] {
      var x, rest := addrs[0], addrs[1..];
      assert [addr] + addrs == [addr, x] + rest;
      assert [x] + rest == addrs;
      if addr != "" && addr != x {
        assert ([addr] + addrs)[1] != ([addr] + addrs)[0];
      } else {
        ScanAgree(x, rest);
        AgreeCons(addr, addrs);
      }
    }
  }

  /** Putting `""`, or a copy of the first address, in front keeps
      agreement as it was. */
  lemma AgreeCons(addr: string, addrs: seq<string>)
    requires addrs != []
    requires addr == "" || addr == addrs[0]
    ensures Agree([addr] + addrs) <==> Agree(addrs)
  {
    var b := [addr] + addrs;
    assert forall k :: 0 <= k < |addrs| ==> b[k + 1] == addrs[k];
    if Agree(addrs) {
      forall i, j | 0 <= i < j < |b| && b[i] != ""
        ensures b[j] == b[i]
      {
        if i > 0 {
          assert addrs[j - 1] == addrs[i - 1];
        } else if j > 1 {
          assert addrs[j - 1] == addrs[0];
        }
      }
    }
    if Agree(b) {
      forall i, j | 0 <= i < j < |addrs| && addrs[i] != ""
        ensures addrs[j] == addrs[i]
      {
        assert b[j + 1] == b[i + 1];
      }
    }
  }

  /** From an empty start, the scan's verdict in terms of the matches
      alone. */
  lemma AgreeFromEmpty(addrs: seq<string>)
    ensures Agree([""] + addrs) <==> Agree(addrs)
    ensures Agree(addrs) ==>
      (([""] + addrs)[|addrs|] != "" <==> exists i :: 0 <= i < |addrs| && addrs[i] != "")
    ensures Agree(addrs) && ([""] + addrs)[|addrs|] != "" ==>
      forall i :: 0 <= i < |addrs| && addrs[i] != "" ==> addrs[i] == ([""] + addrs)[|addrs|]
  {
    if addrs != [] {
      AgreeCons("", addrs);
      assert ([""] + addrs)[|addrs|] == addrs[|addrs| - 1];
    }
  }

  /** The addresses of the rules matching `name` are exactly those of the
      rules whose suffix `name` ends in. */
  lemma {:induction false} RuleAddrsMembers(name: string, rules: seq<ForwardSuffix>, a: string)
    ensures a in RuleAddrs(name, rules) <==>
      exists f :: f in rules && HasSuffix(name, f.suffix) && f.forwardAddr == a
    decreases |rules|
  {
    if rules != [] {
      RuleAddrsMembers(name, rules[1..], a);
      assert rules == [rules[0]] + rules[1..];
      if exists f :: f in rules && HasSuffix(name, f.suffix) && f.forwardAddr == a {
        var f :| f in rules && HasSuffix(name, f.suffix) && f.forwardAddr == a;
        if f != rules[0] {
          assert f in rules[1..];
        }
      }
    }
  }

  /** The matched addresses are exactly those of (question, rule) pairs
      where the rule's suffix ends the question's name. */
  lemma {:induction false} MatchedAddrsMembers(qs: seq<Question>, rules: seq<ForwardSuffix>, a: string)
    ensures a in MatchedAddrs(qs, rules) <==>
      exists q, f :: q in qs && f in rules && HasSuffix(q.name, f.suffix) && f.forwardAddr == a
    decreases |qs|
  {
    if qs != [] {
      MatchedAddrsMembers(qs[1..], rules, a);
      RuleAddrsMembers(qs[0].name, rules, a);
      assert qs == [qs[0]] + qs[1..];
      if exists q, f :: q in qs && f in rules && HasSuffix(q.name, f.suffix) && f.forwardAddr == a {
        var q, f :| q in qs && f in rules && HasSuffix(q.name, f.suffix) && f.forwardAddr == a;
        if q != qs[0] {
          assert q in qs[1..];
        }
      }
    }
  }

  /** No rule matches any question: `suffixMatch` returns `""`. */
  lemma SuffixMatchNone(m: Msg, rules: seq<ForwardSuffix>)
    requires forall q, f :: q in m.question && f in rules ==> !HasSuffix(q.name, f.suffix)
    ensures SuffixMatch(m, rules) == ""
  {
    var addrs := MatchedAddrs(m.question, rules);
    forall a
      ensures a !in addrs
    {
      MatchedAddrsMembers(m.question, rules, a);
    }
    assert forall i :: 0 <= i < |addrs| ==> addrs[i] in addrs;
  }

  /** Two matches, possibly for different questions, that carry different
      non-empty addresses make `suffixMatch` return `""`. */
  lemma SuffixMatchAmbiguous(m: Msg, rules: seq<ForwardSuffix>, q1: Question, f1: ForwardSuffix,
                             q2: Question, f2: ForwardSuffix)
    requires q1 in m.question && f1 in rules && HasSuffix(q1.name, f1.suffix)
    requires q2 in m.question && f2 in rules && HasSuffix(q2.name, f2.suffix)
    requires f1.forwardAddr != "" && f2.forwardAddr != "" && f1.forwardAddr != f2.forwardAddr
    ensures SuffixMatch(m, rules) == ""
  {
    MatchedAddrsMembers(m.question, rules, f1.forwardAddr);
    MatchedAddrsMembers(m.question, rules, f2.forwardAddr);
  }

  /** A non-empty result is the address of a rule whose suffix ends one of
      the question names. */
  lemma SuffixMatchSource(m: Msg, rules: seq<ForwardSuffix>)
    requires SuffixMatch(m, rules) != ""
    ensures exists q, f ::
      q in m.question && f in rules && HasSuffix(q.name, f.suffix) && f.forwardAddr == SuffixMatch(m, rules)
  {
    var addrs := MatchedAddrs(m.question, rules);
    var i :| 0 <= i < |addrs| && addrs[i] != "";
    MatchedAddrsMembers(m.question, rules, addrs[i]);
  }

  // ---------------------------------------------------------------------
  // doProxy

  /** The upstream `doProxy` picks: a suffix match first, else the default
      upstream, else none. */
  function ForwardAddr(m: Msg, cfg: Config): (a: Option<string>)
    ensures a.Some? ==> a.value != ""
    ensures a.None? <==> SuffixMatch(m, cfg.forwardSuffixes) == "" && cfg.forwardAddr == ""
    ensures SuffixMatch(m, cfg.forwardSuffixes) != "" ==> a == Some(SuffixMatch(m, cfg.forwardSuffixes))
    ensures SuffixMatch(m, cfg.forwardSuffixes) == "" ==>
      a == (if cfg.forwardAddr != "" then Some(cfg.forwardAddr) else None)
    ensures a.Some? && a.value != cfg.forwardAddr ==>
      exists q, f :: q in m.question && f in cfg.forwardSuffixes && HasSuffix(q.name, f.suffix)
        && f.forwardAddr == a.value
  {
    var suffixAddr := SuffixMatch(m, cfg.forwardSuffixes);
    if suffixAddr != "" then
      SuffixMatchSource(m, cfg.forwardSuffixes);
      Some(suffixAddr)
    else if cfg.forwardAddr != "" then Some(cfg.forwardAddr)
    else None
  }

  /** `doProxy`: one exchange with the chosen upstream, or none at all when
      there is no upstream. Go reads `m.Question[0]` for its log line once an
      upstream is chosen. */
  function DoProxy(m: Msg, cfg: Config, env: Env): (p: Proxied)
    requires ForwardAddr(m, cfg).Some? ==> |m.question| > 0
    ensures |p.sent| <= 1
    ensures p.sent == [] <==> ForwardAddr(m, cfg).None?
    ensures p.sent == [] ==> p.reply.None?
    ensures p.sent != [] ==>
      && p.sent[0].msg == m
      && Some(p.sent[0].addr) == ForwardAddr(m, cfg)
      && p.reply == env.exchange(m, p.sent[0].addr)
  {
    match ForwardAddr(m, cfg)
    case None => Proxied([], None)
    case Some(addr) => Proxied([Query(m, addr)], env.exchange(m, addr))
  }

  // ---------------------------------------------------------------------
  // handleRequest

  /** `m` answers `request`: same id, marked as a response, carrying the
      request's first question. */
  predicate IsReplyTo(m: Msg, request: Msg)
  {
    m.id == request.id && m.response
      && m.question == (if request.question == [] then [] else [request.question[0]])
  }

  /** The library's `SetReply`: turns `m` into a reply to `request`,
      keeping its answer section. */
  function SetReply(m: Msg, request: Msg): (reply: Msg)
    ensures IsReplyTo(reply, request)
    ensures reply.answer == m.answer
  {
    m.(id := request.id, response := true,
       question := if request.question == [] then [] else [request.question[0]])
  }

  /** `new(dns.Msg)` followed by `SetQuestion(name, dns.TypeA)`. */
  function NewQuery(name: string): (m: Msg)
    ensures m.question == [Question(name, A)] && m.answer == [] && !m.response
  {
    Msg(0, false, [Question(name, A)], [])
  }

  /** `handleRequest` for a request `r` whose routing-table lookup gave
      `lookup`. A request without a question panics on `r.Question[0]` and
      is never answered. Every other path ends in exactly one answer, with
      at most one upstream exchange on the way:
      - a candidate that parses as an IP is answered with the single record
        `domain IN A ip`, or fails if the library rejects that record;
      - any other candidate is resolved upstream as a type-A query for its
        FQDN, and the reply to `r` is the upstream answers followed by
        `domain IN CNAME ip`; no upstream reply, or a rejected CNAME record,
        fails;
      - no candidate: `r` itself is forwarded, and the upstream reply is
        relayed unchanged, or the request fails without one. */
  function HandleRequest(r: Msg, cfg: Config, env: Env, lookup: Option<string>): (h: Handled)
    ensures |h.sent| <= 1
    ensures h.answer.Panicked? <==> r.question == []
    ensures h.answer.Panicked? ==> h.sent == []
    ensures h.answer.Failed? ==> h.answer.request == r
    ensures r.question != [] && lookup.Some? && env.parseIP(lookup.value) ==>
      var rec := RR(r.question[0].name, A, lookup.value);
      && h.sent == []
      && (h.answer.Write? <==> env.accepts(rec))
      && (h.answer.Write? ==> IsReplyTo(h.answer.msg, r) && h.answer.msg.answer == [rec])
    ensures r.question != [] && lookup.Some? && !env.parseIP(lookup.value) ==>
      var sub := NewQuery(env.fqdn(lookup.value));
      var rec := RR(r.question[0].name, CNAME, lookup.value);
      var p := DoProxy(sub, cfg, env);
      && h.sent == p.sent
      && (h.answer.Write? <==> p.reply.Some? && env.accepts(rec))
      && (h.answer.Write? ==> IsReplyTo(h.answer.msg, r) && h.answer.msg.answer == p.reply.value.answer + [rec])
    ensures r.question != [] && lookup.None? ==>
      var p := DoProxy(r, cfg, env);
      && h.sent == p.sent
      && (h.answer.Write? <==> p.reply.Some?)
      && (h.answer.Write? ==> h.answer.msg == p.reply.value)
  {
    if r.question == [] then Handled([], Panicked)
    else
      var domain := r.question[0].name;
      match lookup
      case Some(ip) =>
        if !env.parseIP(ip) then
          var p := DoProxy(NewQuery(env.fqdn(ip)), cfg, env);
          if p.reply.None? then Handled(p.sent, Failed(r))
          else
            var cname := RR(domain, CNAME, ip);
            if !env.accepts(cname) then Handled(p.sent, Failed(r))
            else
              var reply := SetReply(p.reply.value, r);
              Handled(p.sent, Write(reply.(answer := reply.answer + [cname])))
        else
          var a := RR(domain, A, ip);
          if !env.accepts(a) then Handled([], Failed(r))
          else Handled([], Write(SetReply(Msg(0, false, [], []), r).(answer := [a])))
      case None =>
        var p := DoProxy(r, cfg, env);
        if p.reply.None? then Handled(p.sent, Failed(r))
        else Handled(p.sent, Write(p.reply.value))
  }
}

=== FILE: ips.dfy ===
/** The routing table of `ips/ips.go`: a map from each domain (normalised
    with a trailing `.`) to the weighted candidates it resolves to, and a
    parallel map from each domain to the alias sampler built from those
    weights.

    Every public Go operation runs under one lock, so each is modelled as a
    single transition from one `Table` to the next. Map iteration order is
    left open (`:|`), and each random draw is a parameter: the column `k`
    that `Next` picks and the uniform value `u` it compares against. */
module Ips {
  import opened Wrappers
  import opened Strings
  import opened Vose

  /** The candidates of one domain, with their integer weights. */
  datatype DomainEntry = DomainEntry(resolvers: map<string, int>)

  /** The two package-level maps: `m` and `rndDomains`. */
  datatype Table = Table(m: map<string, DomainEntry>, rnd: map<string, VoseRandom>)

  /** The table the program starts from. */
  const Empty: Table := Table(map[], map[])

  /** What the as-written `GetExact` can end in: a candidate, "not found",
      or a call of `Next` on a nil sampler (a Go panic). */
  datatype Lookup = Found(ip: string) | NotFound | NilSampler

  // ---------------------------------------------------------------------
  // Domain names

  /** `appendPeriod`: adds a trailing `.` unless there already is one. */
  function AppendPeriod(domain: string): (r: string)
    ensures HasSuffix(r, ".")
    ensures HasSuffix(domain, ".") <==> r == domain
    ensures |domain| <= |r| <= |domain| + 1 && r[..|domain|] == domain
  {
    if HasSuffix(domain, ".") then domain
    else HasSuffixAppended(domain, "."); domain + "."
  }

  /** Normalising twice is normalising once. */
  lemma AppendPeriodIdempotent(domain: string)
    ensures AppendPeriod(AppendPeriod(domain)) == AppendPeriod(domain)
  {
  }

  // ---------------------------------------------------------------------
  // Invariants of the table

  /** A candidate set the sampler can be built from: at least one candidate
      and only positive weights. */
  predicate Weighted(res: map<string, int>)
  {
    res != map[] && PositiveWeights(res)
  }

  /** Every weight in `res` is positive. */
  predicate PositiveWeights(res: map<string, int>)
  {
    forall c :: c in res ==> res[c] > 0
  }

  /** Every stored weight is positive. */
  predicate Positive(t: Table)
  {
    forall d :: d in t.m ==> PositiveWeights(t.m[d].resolvers)
  }

  /** A sampler that can be drawn from: well formed, with at least one
      column (`Next` on an empty table would panic in `rand.Intn(0)`). */
  ghost predicate Live(v: VoseRandom)
  {
    WellFormed(v) && v.prob.Keys != {}
  }

  /** `v` is the sampler `NewVoseRandom(FlattenProbs(res))` describes: it
      draws candidate `c` with probability `res[c] / total`. */
  ghost predicate SamplerFor(v: VoseRandom, res: map<string, int>)
  {
    && v.dist.Keys == res.Keys
    && 0.0 < TotalWeight(res)
    && (forall c :: c in res ==> v.dist[c] == res[c] as real / TotalWeight(res))
    && WellFormed(v)
    && Reproduces(v)
  }

  /** Every domain has a sampler over exactly its current candidates, and
      every sampler, stale or not, can be drawn from. (That the sampler also
      carries the candidates' weights is stated by each writer, for the
      sampler it rebuilds: see `SamplerFor`.) */
  ghost predicate Consistent(t: Table)
  {
    ConsistentMaps(t.m, t.rnd)
  }

  /** `Consistent`, stated on the two maps. */
  ghost predicate ConsistentMaps(m: map<string, DomainEntry>, rnd: map<string, VoseRandom>)
  {
    && m.Keys <= rnd.Keys
    && (forall d :: d in m ==> Weighted(m[d].resolvers) && rnd[d].dist.Keys == m[d].resolvers.Keys)
    && (forall d :: d in rnd ==> Live(rnd[d]))
  }

  /** `Consistent`, and no sampler outlives its domain. */
  ghost predicate Synced(t: Table)
  {
    ConsistentMaps(t.m, t.rnd) && t.m.Keys == t.rnd.Keys
  }

  /** No sampler is stale: every domain has the sampler built from its
      current candidates. */
  ghost predicate Fresh(t: Table)
  {
    FreshMaps(t.m, t.rnd)
  }

  /** `Fresh`, stated on the two maps. */
  ghost predicate FreshMaps(m: map<string, DomainEntry>, rnd: map<string, VoseRandom>)
  {
    forall d :: d in m ==> d in rnd && SamplerFor(rnd[d], m[d].resolvers)
  }

  /** Every key of both maps ends in `.`. */
  predicate Normalised(t: Table)
  {
    && (forall d :: d in t.m ==> HasSuffix(d, "."))
    && (forall d :: d in t.rnd ==> HasSuffix(d, "."))
  }

  /** The candidates currently stored for `d`, none if `d` is absent. */
  function Resolvers(t: Table, d: string): (res: map<string, int>)
    ensures d !in t.m ==> res == map[]
    ensures d in t.m ==> res == t.m[d].resolvers
  {
    if d in t.m then t.m[d].resolvers else map[]
  }

  // ---------------------------------------------------------------------
  // Transitions

  /** `NewVoseRandom(FlattenProbs(res))`, the sampler every writer rebuilds. */
  method Rebuild(res: map<string, int>) returns (v: VoseRandom)
    requires Weighted(res)
    ensures SamplerFor(v, res)
    ensures Live(v)
  {
    var dist := FlattenProbs(res);
    v := NewVoseRandom(dist);
  }

  /** `Set`: stores `weight` for candidate `ip` of the normalised domain,
      creating the entry if needed, and rebuilds that domain's sampler. */
  method Set(t: Table, domain: string, ip: string, weight: int) returns (t': Table)
    requires Positive(t)
    requires weight > 0
    ensures Positive(t')
    ensures domain == "" ==> t' == t
    ensures domain != "" ==>
      var d := AppendPeriod(domain);
      && d in t'.m && t'.m == t.m[d := t'.m[d]]
      && t'.m[d].resolvers.Keys == Resolvers(t, d).Keys + {ip}
      && t'.m[d].resolvers[ip] == weight
      && (forall c :: c in Resolvers(t, d) && c != ip ==> t'.m[d].resolvers[c] == Resolvers(t, d)[c])
      && d in t'.rnd && t'.rnd == t.rnd[d := t'.rnd[d]]
      && SamplerFor(t'.rnd[d], t'.m[d].resolvers)
    ensures Consistent(t) ==> Consistent(t')
    ensures Synced(t) ==> Synced(t')
    ensures Normalised(t) ==> Normalised(t')
  {
    if domain == "" {
      return t;
    }
    var d := AppendPeriod(domain);
    var res := Upsert(Resolvers(t, d), ip, weight);
    t' := Reweigh(t, d, res);
  }

  /** The candidates after `Set` stores `weight` for `ip`: `ip` holds
      `weight`, every other candidate keeps its weight, and positive weights
      stay positive. */
  function Upsert(res: map<string, int>, ip: string, weight: int): (r: map<string, int>)
    requires PositiveWeights(res) && weight > 0
    ensures r.Keys == res.Keys + {ip} && ip in r && r[ip] == weight
    ensures forall c :: c in res && c != ip ==> r[c] == res[c]
    ensures Weighted(r)
  {
    res[ip := weight]
  }

  /** `Set` keeps every sampler fresh: the one sampler it replaces is
      rebuilt from the entry it writes. */
  method SetFresh(t: Table, domain: string, ip: string, weight: int) returns (t': Table)
    requires Positive(t) && Fresh(t)
    requires weight > 0
    ensures Fresh(t')
    ensures domain != "" ==>
      var d := AppendPeriod(domain);
      d in t'.m && ip in t'.m[d].resolvers && t'.m[d].resolvers[ip] == weight
  {
    t' := Set(t, domain, ip, weight);
    if domain != "" {
      UpdateFresh(t, t', AppendPeriod(domain));
    }
  }

  /** `Unset`: removes candidate `ip` from the normalised domain; a domain
      left without candidates loses both its entry and its sampler, any other
      gets its sampler rebuilt. */
  method Unset(t: Table, domain: string, ip: string) returns (t': Table)
    requires Positive(t)
    ensures Positive(t')
    ensures AppendPeriod(domain) !in t.m ==> t' == t
    ensures AppendPeriod(domain) in t.m ==>
      var d := AppendPeriod(domain);
      var rest := t.m[d].resolvers - {ip};
      if rest == map[] then
        t'.m == t.m - {d} && t'.rnd == t.rnd - {d}
      else
        && t'.m == t.m[d := DomainEntry(rest)]
        && d in t'.rnd && t'.rnd == t.rnd[d := t'.rnd[d]]
        && SamplerFor(t'.rnd[d], rest)
    ensures Consistent(t) ==> Consistent(t')
    ensures Synced(t) ==> Synced(t')
    ensures Fresh(t) ==> Fresh(t')
    ensures Normalised(t) ==> Normalised(t')
  {
    var d := AppendPeriod(domain);
    if d !in t.m {
      return t;
    }
    var rest := t.m[d].resolvers - {ip};
    if |rest| == 0 {
      var m, rnd := t.m - {d}, t.rnd - {d};
      Uninstall(t.m, t.rnd, d);
      UninstallFresh(t.m, t.rnd, d);
      t' := Table(m, rnd);
    } else {
      assert PositiveWeights(t.m[d].resolvers);
      t' := Reweigh(t, d, rest);
      UpdateFresh(t, t', d);
    }
  }

  /** The step both writers end with: store `res` as the entry of `d` and
      rebuild the sampler of `d` from it. */
  method Reweigh(t: Table, d: string, res: map<string, int>) returns (t': Table)
    requires Positive(t)
    requires Weighted(res)
    ensures t'.m == t.m[d := DomainEntry(res)]
    ensures d in t'.rnd && t'.rnd == t.rnd[d := t'.rnd[d]]
    ensures SamplerFor(t'.rnd[d], res)
    ensures Positive(t')
    ensures Consistent(t) ==> Consistent(t')
    ensures Synced(t) ==> Synced(t')
    ensures Normalised(t) && HasSuffix(d, ".") ==> Normalised(t')
  {
    var v := Rebuild(res);
    var m, rnd := t.m[d := DomainEntry(res)], t.rnd[d := v];
    Install(t.m, t.rnd, d, res, v);
    t' := Table(m, rnd);
  }

  /** Replacing one domain's entry and sampler by a matching pair keeps the
      maps consistent, synced and normalised. */
  lemma Install(m: map<string, DomainEntry>, rnd: map<string, VoseRandom>, d: string,
                res: map<string, int>, v: VoseRandom)
    requires Weighted(res) && SamplerFor(v, res) && Live(v)
    ensures ConsistentMaps(m, rnd) ==> ConsistentMaps(m[d := DomainEntry(res)], rnd[d := v])
    ensures m.Keys == rnd.Keys ==> m[d := DomainEntry(res)].Keys == rnd[d := v].Keys
  {
    if ConsistentMaps(m, rnd) {
      var m', rnd' := m[d := DomainEntry(res)], rnd[d := v];
      forall e | e in m'
        ensures Weighted(m'[e].resolvers) && rnd'[e].dist.Keys == m'[e].resolvers.Keys
      {
        if e != d {
          assert m'[e] == m[e] && rnd'[e] == rnd[e];
        }
      }
      forall e | e in rnd'
        ensures Live(rnd'[e])
      {
        if e != d {
          assert rnd'[e] == rnd[e];
        }
      }
    }
  }

  /** Replacing one domain's entry and sampler by a matching pair keeps
      every sampler fresh. */
  lemma InstallFresh(m: map<string, DomainEntry>, rnd: map<string, VoseRandom>, d: string,
                     res: map<string, int>, v: VoseRandom)
    requires SamplerFor(v, res)
    ensures FreshMaps(m, rnd) ==> FreshMaps(m[d := DomainEntry(res)], rnd[d := v])
  {
    if FreshMaps(m, rnd) {
      var m', rnd' := m[d := DomainEntry(res)], rnd[d := v];
      forall e | e in m'
        ensures e in rnd' && SamplerFor(rnd'[e], m'[e].resolvers)
      {
        if e != d {
          assert m'[e] == m[e] && rnd'[e] == rnd[e];
        }
      }
    }
  }

  /** A step that changes one domain's entry and sampler, leaving the
      sampler built from the new entry, keeps every sampler fresh. `Set`'s
      postcondition is such a step, and so is `Unset`'s when candidates
      remain. */
  lemma UpdateFresh(t: Table, t': Table, d: string)
    requires d in t'.m && t'.m == t.m[d := t'.m[d]]
    requires d in t'.rnd && t'.rnd == t.rnd[d := t'.rnd[d]]
    requires SamplerFor(t'.rnd[d], t'.m[d].resolvers)
    ensures Fresh(t) ==> Fresh(t')
  {
    InstallFresh(t.m, t.rnd, d, t'.m[d].resolvers, t'.rnd[d]);
    assert t'.m == t.m[d := DomainEntry(t'.m[d].resolvers)];
  }

  /** Dropping one domain from both maps keeps every sampler fresh. */
  lemma UninstallFresh(m: map<string, DomainEntry>, rnd: map<string, VoseRandom>, d: string)
    ensures FreshMaps(m, rnd) ==> FreshMaps(m - {d}, rnd - {d})
  {
    if FreshMaps(m, rnd) {
      var m', rnd' := m - {d}, rnd - {d};
      forall e | e in m'
        ensures e in rnd' && SamplerFor(rnd'[e], m'[e].resolvers)
      {
        assert m'[e] == m[e] && rnd'[e] == rnd[e];
      }
    }
  }

  /** Dropping one domain from both maps keeps them consistent and synced. */
  lemma Uninstall(m: map<string, DomainEntry>, rnd: map<string, VoseRandom>, d: string)
    ensures ConsistentMaps(m, rnd) ==> ConsistentMaps(m - {d}, rnd - {d})
    ensures m.Keys == rnd.Keys ==> (m - {d}).Keys == (rnd - {d}).Keys
  {
    if ConsistentMaps(m, rnd) {
      var m', rnd' := m - {d}, rnd - {d};
      forall e | e in m'
        ensures Weighted(m'[e].resolvers) && rnd'[e].dist.Keys == m'[e].resolvers.Keys
      {
        assert m'[e] == m[e] && rnd'[e] == rnd[e];
      }
      forall e | e in rnd'
        ensures Live(rnd'[e])
      {
        assert rnd'[e] == rnd[e];
      }
    }
  }

  /** `SetAll`: replaces the mapping by `m2`, key for key as given (no
      trailing `.` is added), and builds a sampler for each of its domains.
      Samplers of domains that `m2` lacks are kept. */
  method SetAll(t: Table, m2: map<string, DomainEntry>) returns (t': Table)
    requires forall d :: d in m2 ==> Weighted(m2[d].resolvers)
    ensures t'.m == m2
    ensures Positive(t')
    ensures t'.rnd.Keys == t.rnd.Keys + m2.Keys
    ensures forall d :: d in m2 ==> SamplerFor(t'.rnd[d], m2[d].resolvers)
    ensures Fresh(t')
    ensures forall d :: d in t.rnd && d !in m2 ==> t'.rnd[d] == t.rnd[d]
    ensures Consistent(t) ==> Consistent(t')
    ensures Consistent(t) ==> (Synced(t') <==> t.rnd.Keys <= m2.Keys)
  {
    var m := CopyMapping(m2);
    var rnd := BuildSamplers(t.rnd, m2);
    Replace(t.rnd, m2, rnd);
    t' := Table(m, rnd);
  }

  /** The sampler half of `SetAll`'s loop: builds a sampler for each domain
      of `m2`, leaving the samplers of other domains in place. */
  method BuildSamplers(before: map<string, VoseRandom>, m2: map<string, DomainEntry>)
    returns (rnd: map<string, VoseRandom>)
    requires forall d :: d in m2 ==> Weighted(m2[d].resolvers)
    ensures rnd.Keys == before.Keys + m2.Keys
    ensures Samplers(rnd, m2, m2.Keys)
    ensures forall d :: d in before && d !in m2 ==> rnd[d] == before[d]
  {
    rnd := before;
    var rest := m2.Keys;
    while rest != {}
      invariant rest <= m2.Keys
      invariant rnd.Keys == before.Keys + (m2.Keys - rest)
      invariant Samplers(rnd, m2, m2.Keys - rest)
      invariant forall d :: d in before && (d !in m2 || d in rest) ==> rnd[d] == before[d]
      decreases rest
    {
      var d :| d in rest;
      var v := Rebuild(m2[d].resolvers);
      AddSampler(rnd, m2, m2.Keys - rest, d, v);
      assert m2.Keys - (rest - {d}) == (m2.Keys - rest) + {d};
      rnd := rnd[d := v];
      rest := rest - {d};
    }
    assert m2.Keys - rest == m2.Keys;
  }

  /** Every domain in `keys` has in `rnd` a sampler built from its entry in
      `m2`. */
  ghost predicate Samplers(rnd: map<string, VoseRandom>, m2: map<string, DomainEntry>, keys: set<string>)
  {
    forall d :: d in keys ==> d in rnd && d in m2 && SamplerFor(rnd[d], m2[d].resolvers)
  }

  /** Adding the sampler of one more domain. */
  lemma AddSampler(rnd: map<string, VoseRandom>, m2: map<string, DomainEntry>, keys: set<string>,
                   d: string, v: VoseRandom)
    requires Samplers(rnd, m2, keys)
    requires d in m2 && SamplerFor(v, m2[d].resolvers)
    ensures Samplers(rnd[d := v], m2, keys + {d})
  {
    forall e | e in keys + {d}
      ensures e in rnd[d := v] && e in m2 && SamplerFor(rnd[d := v][e], m2[e].resolvers)
    {
      if e != d {
        assert rnd[d := v][e] == rnd[e];
      }
    }
  }

  /** After `SetAll`'s loop: the new maps are consistent if every earlier
      sampler was usable, and synced exactly when no earlier sampler is left
      without a domain. */
  lemma Replace(before: map<string, VoseRandom>, m2: map<string, DomainEntry>, rnd: map<string, VoseRandom>)
    requires forall d :: d in m2 ==> Weighted(m2[d].resolvers)
    requires rnd.Keys == before.Keys + m2.Keys
    requires Samplers(rnd, m2, m2.Keys)
    requires forall d :: d in before && d !in m2 ==> rnd[d] == before[d]
    ensures (forall d :: d in before ==> Live(before[d])) ==> ConsistentMaps(m2, rnd)
    ensures m2.Keys == rnd.Keys <==> before.Keys <= m2.Keys
  {
    if forall d :: d in before ==> Live(before[d]) {
      forall e | e in rnd
        ensures Live(rnd[e])
      {
        if e !in m2 {
          assert rnd[e] == before[e];
        } else {
          assert rnd[e].prob.Keys == m2[e].resolvers.Keys;
        }
      }
    }
  }

  /** `GetAll`: a copy of the mapping. */
  method GetAll(t: Table) returns (snap: map<string, DomainEntry>)
    ensures snap == t.m
  {
    snap := CopyMapping(t.m);
  }

  /** The copy loop of `GetAll` and `SetAll`: a fresh map filled entry by
      entry, in map order. */
  method CopyMapping(src: map<string, DomainEntry>) returns (dst: map<string, DomainEntry>)
    ensures dst == src
  {
    dst := map[];
    var rest := src.Keys;
    while rest != {}
      invariant rest <= src.Keys
      invariant dst.Keys == src.Keys - rest
      invariant forall d :: d in dst ==> dst[d] == src[d]
      decreases rest
    {
      var d :| d in rest;
      dst := dst[d := src[d]];
      rest := rest - {d};
    }
  }

  /** A snapshot taken with `GetAll` and handed back to `SetAll` restores the
      same mapping, and a synced table stays synced. */
  method Restore(t: Table) returns (t': Table)
    requires Consistent(t)
    ensures t'.m == t.m
    ensures t'.rnd.Keys == t.rnd.Keys
    ensures Synced(t) ==> Synced(t')
  {
    var snap := GetAll(t);
    assert forall d :: d in snap ==> Weighted(snap[d].resolvers);
    t' := SetAll(t, snap);
    assert t.m.Keys <= t.rnd.Keys;
  }

  // ---------------------------------------------------------------------
  // Lookups

  /** `GetExact` as written: the entry is looked up under the normalised
      domain, but the sampler under the domain exactly as given. */
  function GetExactAsWritten(t: Table, domain: string, k: string, u: real): (r: Lookup)
    requires Consistent(t)
    requires 0.0 <= u < 1.0
    requires AppendPeriod(domain) in t.m && domain in t.rnd ==> k in t.rnd[domain].prob
    ensures r == NotFound <==> AppendPeriod(domain) !in t.m
    ensures r == NilSampler <==> AppendPeriod(domain) in t.m && domain !in t.rnd
    ensures r.Found? ==> domain in t.rnd && r.ip in t.rnd[domain].dist
  {
    if AppendPeriod(domain) !in t.m then NotFound
    else if domain !in t.rnd then NilSampler
    else Found(Next(t.rnd[domain], k, u))
  }

  /** In a table whose keys all end in `.`, asking for a stored domain
      without its trailing `.` always reaches the nil sampler. */
  lemma GetExactUndotted(t: Table, domain: string, k: string, u: real)
    requires Consistent(t) && Normalised(t)
    requires 0.0 <= u < 1.0
    requires !HasSuffix(domain, ".") && AppendPeriod(domain) in t.m
    ensures GetExactAsWritten(t, domain, k, u) == NilSampler
  {
    assert domain !in t.rnd;
  }

  /** The smallest instance: `Set("a.com", …)` on the empty table, then
      `GetExact("a.com")`, calls `Next` on a nil sampler. */
  method SetThenGetExact() returns (r: Lookup)
    ensures r == NilSampler
  {
    var domain := "a.com";
    assert Consistent(Empty) && Normalised(Empty);
    var t := Set(Empty, domain, "10.0.0.1", 1);
    assert Consistent(t) && Normalised(t);
    HasSuffixChar(domain, '.');
    assert !HasSuffix(domain, ".");
    assert AppendPeriod(domain) in t.m;
    GetExactUndotted(t, domain, "10.0.0.1", 0.0);
    r := GetExactAsWritten(t, domain, "10.0.0.1", 0.0);
  }

  /** The same misread with a stale sampler instead of a nil one: `SetAll`
      stores a sampler under the undotted key `a.com`, `Set("a.com", …)`
      rebuilds only the sampler of `a.com.`, and `GetExact("a.com")` then
      draws from the old sampler a candidate that `a.com.` does not have. */
  method SetAllThenSetStale() returns (t: Table, r: Lookup)
    ensures AppendPeriod("a.com") in t.m
    ensures r == Found("old") && "old" !in t.m[AppendPeriod("a.com")].resolvers
  {
    var t0 := SetAllUndotted();
    t := SetOverUndotted(t0);
    r := GetExactAsWritten(t, "a.com", "old", 0.0);
  }

  /** `SetAll` with the single entry `a.com` holding `old`: the sampler is
      stored under `a.com` and can only draw `old`. */
  method SetAllUndotted() returns (t: Table)
    ensures Consistent(t) && Positive(t)
    ensures AppendPeriod("a.com") !in t.m
    ensures "a.com" in t.rnd && t.rnd["a.com"].prob.Keys == t.rnd["a.com"].dist.Keys == {"old"}
  {
    var domain := "a.com";
    var m2 := map[domain := DomainEntry(map["old" := 1])];
    assert "old" in m2[domain].resolvers;
    assert Weighted(m2[domain].resolvers);
    t := SetAll(Empty, m2);
    HasSuffixChar(domain, '.');
    assert !HasSuffix(domain, ".");
    assert AppendPeriod(domain) != domain;
  }

  /** `Set("a.com", "new", 1)` on that table creates the entry `a.com.`
      with `new` alone and leaves the sampler under `a.com` as it was. */
  method SetOverUndotted(t0: Table) returns (t: Table)
    requires Consistent(t0) && Positive(t0)
    requires AppendPeriod("a.com") !in t0.m
    requires "a.com" in t0.rnd && t0.rnd["a.com"].prob.Keys == t0.rnd["a.com"].dist.Keys == {"old"}
    ensures Consistent(t)
    ensures AppendPeriod("a.com") in t.m && t.m[AppendPeriod("a.com")].resolvers.Keys == {"new"}
    ensures "a.com" in t.rnd && t.rnd["a.com"] == t0.rnd["a.com"]
  {
    var domain := "a.com";
    t := Set(t0, domain, "new", 1);
    HasSuffixChar(domain, '.');
    assert !HasSuffix(domain, ".");
    assert AppendPeriod(domain) != domain;
  }

  /** `GetExact` with the sampler looked up under the normalised domain:
      not found exactly when the normalised domain has no entry, and
      otherwise one of that domain's candidates. */
  function GetExact(t: Table, domain: string, k: string, u: real): (r: Option<string>)
    requires Consistent(t)
    requires 0.0 <= u < 1.0
    requires AppendPeriod(domain) in t.m ==> k in t.rnd[AppendPeriod(domain)].prob
    ensures r.None? <==> AppendPeriod(domain) !in t.m
    ensures r.Some? ==> r.value in t.m[AppendPeriod(domain)].resolvers
  {
    var d := AppendPeriod(domain);
    if d !in t.m then None else Some(Next(t.rnd[d], k, u))
  }

  /** On a domain that already ends in `.` the two lookups agree. */
  lemma GetExactDotted(t: Table, domain: string, k: string, u: real)
    requires Consistent(t)
    requires 0.0 <= u < 1.0
    requires HasSuffix(domain, ".")
    requires domain in t.m ==> k in t.rnd[domain].prob
    ensures GetExactAsWritten(t, domain, k, u)
      == (if GetExact(t, domain, k, u).Some? then Found(GetExact(t, domain, k, u).value) else NotFound)
  {
  }

  /** `Get` as written, without its debug counter: it calls the as-written
      `GetExact`, so it panics (`None`) exactly when that lookup reaches the
      nil sampler; otherwise it gives the candidate and whether one was
      found, with `""` standing in when none was. */
  function GetAsWritten(t: Table, domain: string, k: string, u: real): (r: Option<(string, bool)>)
    requires Consistent(t)
    requires 0.0 <= u < 1.0
    requires AppendPeriod(domain) in t.m && domain in t.rnd ==> k in t.rnd[domain].prob
    ensures r.None? <==> AppendPeriod(domain) in t.m && domain !in t.rnd
    ensures r.Some? ==> (r.value.1 <==> AppendPeriod(domain) in t.m)
    ensures r.Some? && r.value.1 ==> domain in t.rnd && r.value.0 in t.rnd[domain].dist
    ensures r.Some? && !r.value.1 ==> r.value.0 == ""
  {
    match GetExactAsWritten(t, domain, k, u)
    case Found(ip) => Some((ip, true))
    case NotFound => Some(("", false))
    case NilSampler => None
  }

  /** On a domain that ends in `.`, `Get` as written never panics and
      agrees with the corrected `Get`. */
  lemma GetDotted(t: Table, domain: string, k: string, u: real)
    requires Consistent(t)
    requires 0.0 <= u < 1.0
    requires HasSuffix(domain, ".")
    requires domain in t.m ==> k in t.rnd[domain].prob
    ensures GetAsWritten(t, domain, k, u) == Some(Get(t, domain, k, u))
  {
    GetExactDotted(t, domain, k, u);
  }

  /** `Get` with the corrected `GetExact`, without its debug counter: the
      candidate and whether one was found, with `""` standing in when none
      was. */
  function Get(t: Table, domain: string, k: string, u: real): (r: (string, bool))
    requires Consistent(t)
    requires 0.0 <= u < 1.0
    requires AppendPeriod(domain) in t.m ==> k in t.rnd[AppendPeriod(domain)].prob
    ensures r.1 <==> AppendPeriod(domain) in t.m
    ensures r.1 ==> r.0 in t.m[AppendPeriod(domain)].resolvers
    ensures !r.1 ==> r.0 == ""
  {
    match GetExact(t, domain, k, u)
    case Some(ip) => (ip, true)
    case None => ("", false)
  }
}

=== FILE: server.dfy ===
/** The request handler of `dns/dns.go` wired to the routing table of
    `ips/ips.go`: the lookup that `handleRequest` starts with is `ips.Get`,
    as written, on the first question's name, drawn with column `k` and
    value `u`. */
module Server {
  import opened Wrappers
  import opened Strings
  import opened Ips
  import opened Dns

  /** `handleRequest(w, r)` against the table `t`. A request without a
      question panics before the lookup; a name whose normalised form is
      stored but which has no sampler under the name as given panics inside
      `Get`; every other request takes the branch its lookup selects. */
  function Serve(t: Table, r: Msg, cfg: Config, env: Env, k: string, u: real): (h: Handled)
    requires Consistent(t)
    requires 0.0 <= u < 1.0
    requires r.question != [] && AppendPeriod(r.question[0].name) in t.m && r.question[0].name in t.rnd
      ==> k in t.rnd[r.question[0].name].prob
    ensures r.question == [] ==> h == Handled([], Panicked)
    ensures r.question != [] && AppendPeriod(r.question[0].name) !in t.m ==>
      h == HandleRequest(r, cfg, env, None)
    ensures r.question != [] && AppendPeriod(r.question[0].name) in t.m && r.question[0].name !in t.rnd ==>
      h == Handled([], Panicked)
    ensures r.question != [] && AppendPeriod(r.question[0].name) in t.m && r.question[0].name in t.rnd ==>
      exists ip :: ip in t.rnd[r.question[0].name].dist && h == HandleRequest(r, cfg, env, Some(ip))
  {
    if r.question == [] then HandleRequest(r, cfg, env, None)
    else
      match GetAsWritten(t, r.question[0].name, k, u)
      case None => Handled([], Panicked)
      case Some((ip, ok)) => HandleRequest(r, cfg, env, if ok then Some(ip) else None)
  }

  /** A fully qualified name whose candidates are all IP addresses is
      answered without any upstream exchange: with its A record, or with a
      failure when the library rejects that record. */
  lemma ServedLocally(t: Table, r: Msg, cfg: Config, env: Env, k: string, u: real)
    requires Consistent(t)
    requires 0.0 <= u < 1.0
    requires r.question != [] && HasSuffix(r.question[0].name, ".")
    requires r.question[0].name in t.m
    requires k in t.rnd[r.question[0].name].prob
    requires forall ip :: ip in t.m[r.question[0].name].resolvers ==> env.parseIP(ip)
    ensures var h := Serve(t, r, cfg, env, k, u);
      && h.sent == []
      && !h.answer.Panicked?
      && (h.answer.Write? ==>
            && IsReplyTo(h.answer.msg, r)
            && |h.answer.msg.answer| == 1
            && h.answer.msg.answer[0].rrtype == A
            && h.answer.msg.answer[0].data in t.m[r.question[0].name].resolvers)
  {
    var name := r.question[0].name;
    assert AppendPeriod(name) == name;
    var h := Serve(t, r, cfg, env, k, u);
    var ip :| ip in t.rnd[name].dist && h == HandleRequest(r, cfg, env, Some(ip));
    assert ip in t.m[name].resolvers;
    assert env.parseIP(ip);
  }

  /** In a table whose keys all end in `.`, a request for a stored name
      written without its trailing `.` is never answered: `Get` panics. */
  lemma ServeUndotted(t: Table, r: Msg, cfg: Config, env: Env, k: string, u: real)
    requires Consistent(t) && Normalised(t)
    requires 0.0 <= u < 1.0
    requires r.question != [] && !HasSuffix(r.question[0].name, ".")
    requires AppendPeriod(r.question[0].name) in t.m
    ensures Serve(t, r, cfg, env, k, u).answer.Panicked?
  {
    assert r.question[0].name !in t.rnd;
  }

  /** A name without an entry is forwarded as it is, to the upstream the
      suffix rules or the default choose, and the upstream reply is relayed
      unchanged. */
  lemma Forwarded(t: Table, r: Msg, cfg: Config, env: Env, k: string, u: real)
    requires Consistent(t)
    requires 0.0 <= u < 1.0
    requires r.question != []
    requires AppendPeriod(r.question[0].name) !in t.m
    ensures var h := Serve(t, r, cfg, env, k, u);
      && (h.sent == [] <==> ForwardAddr(r, cfg).None?)
      && (h.sent != [] ==> h.sent[0] == Query(r, ForwardAddr(r, cfg).value))
      && (h.answer.Write? ==> h.answer.msg == env.exchange(r, ForwardAddr(r, cfg).value).value)
      && (h.answer.Failed? <==> ForwardAddr(r, cfg).None? || env.exchange(r, ForwardAddr(r, cfg).value).None?)
  {
  }
}

=== FILE: strings.dfy ===
/** The piece of Go's `strings` package the core relies on. */
module Strings {

  /** `strings.HasSuffix`: `suffix` is a tail of `s`. */
  predicate HasSuffix(s: string, suffix: string)
  {
    |suffix| <= |s| && s[|s| - |suffix|..] == suffix
  }

  /** A string ends in `c` exactly when it has the one-character suffix `[c]`. */
  lemma HasSuffixChar(s: string, c: char)
    ensures HasSuffix(s, [c]) <==> (|s| > 0 && s[|s| - 1] == c)
  {
    if |s| > 0 {
      assert s[|s| - 1..] == [s[|s| - 1]];
    }
  }

  /** Every string ends with itself followed by what was appended. */
  lemma HasSuffixAppended(s: string, t: string)
    ensures HasSuffix(s + t, t)
  {
    assert (s + t)[|s + t| - |t|..] == t;
  }
}

=== FILE: sums.dfy ===
/** Exact sums of real-valued maps over finite sets of string keys.

    Go iterates its maps in an unspecified order; a sum over a set does not
    depend on any order, so these sums are the specification-level totals the
    sampler and the weight normalisation are stated against. */
module Sums {

  /** The sum of `f[k]` over every `k` in `s`. */
  ghost function Sum(s: set<string>, f: map<string, real>): real
    requires s <= f.Keys
    decreases s
  {
    if s == {} then 0.0 else var k :| k in s; f[k] + Sum(s - {k}, f)
  }

  /** Any element can be split off a sum, not only the one `Sum` picks. */
  lemma {:induction false} SumRemove(s: set<string>, f: map<string, real>, y: string)
    requires s <= f.Keys
    requires y in s
    ensures Sum(s, f) == f[y] + Sum(s - {y}, f)
    decreases s
  {
    var k :| k in s && Sum(s, f) == f[k] + Sum(s - {k}, f);
    if k != y {
      SumRemove(s - {k}, f, y);
      SumRemove(s - {y}, f, k);
      assert s - {k} - {y} == s - {y} - {k};
    }
  }

  /** Sums only look at the keys they range over. */
  lemma {:induction false} SumAgree(s: set<string>, f: map<string, real>, g: map<string, real>)
    requires s <= f.Keys && s <= g.Keys
    requires forall k :: k in s ==> f[k] == g[k]
    ensures Sum(s, f) == Sum(s, g)
    decreases s
  {
    if s != {} {
      var k :| k in s;
      SumRemove(s, f, k);
      SumRemove(s, g, k);
      SumAgree(s - {k}, f, g);
    }
  }

  /** Adding one fresh key `y` to the range adds `g[y]`, where `g` agrees with
      `f` on the old range. */
  lemma SumAdd(s: set<string>, f: map<string, real>, g: map<string, real>, y: string)
    requires s <= f.Keys && s + {y} <= g.Keys
    requires y !in s
    requires forall k :: k in s ==> f[k] == g[k]
    ensures Sum(s + {y}, g) == Sum(s, f) + g[y]
  {
    SumRemove(s + {y}, g, y);
    assert s + {y} - {y} == s;
    SumAgree(s, f, g);
  }

  /** Scaling every term scales the sum. */
  lemma {:induction false} SumScale(s: set<string>, f: map<string, real>, g: map<string, real>, c: real)
    requires s <= f.Keys && s <= g.Keys
    requires forall k :: k in s ==> g[k] == f[k] * c
    ensures Sum(s, g) == Sum(s, f) * c
    decreases s
  {
    if s != {} {
      var k :| k in s;
      SumRemove(s, f, k);
      SumRemove(s, g, k);
      SumScale(s - {k}, f, g, c);
    }
  }

  /** Lowering every term by one lowers the sum by the number of terms. */
  lemma {:induction false} SumShift(s: set<string>, f: map<string, real>, g: map<string, real>)
    requires s <= f.Keys && s <= g.Keys
    requires forall k :: k in s ==> g[k] == f[k] - 1.0
    ensures Sum(s, g) == Sum(s, f) - |s| as real
    decreases s
  {
    if s != {} {
      var k :| k in s;
      SumRemove(s, f, k);
      SumRemove(s, g, k);
      SumShift(s - {k}, f, g);
      assert |s - {k}| as real == |s| as real - 1.0;
    }
  }

  /** Non-negative terms have a non-negative sum. */
  lemma {:induction false} SumNonneg(s: set<string>, f: map<string, real>)
    requires s <= f.Keys
    requires forall k :: k in s ==> 0.0 <= f[k]
    ensures 0.0 <= Sum(s, f)
    decreases s
  {
    if s != {} {
      var k :| k in s;
      SumRemove(s, f, k);
      SumNonneg(s - {k}, f);
    }
  }

  /** Non-positive terms have a non-positive sum. */
  lemma {:induction false} SumNonpos(s: set<string>, f: map<string, real>)
    requires s <= f.Keys
    requires forall k :: k in s ==> f[k] <= 0.0
    ensures Sum(s, f) <= 0.0
    decreases s
  {
    if s != {} {
      var k :| k in s;
      SumRemove(s, f, k);
      SumNonpos(s - {k}, f);
    }
  }

  /** Positive terms over a non-empty range have a positive sum. */
  lemma SumPositive(s: set<string>, f: map<string, real>)
    requires s <= f.Keys && s != {}
    requires forall k :: k in s ==> 0.0 < f[k]
    ensures 0.0 < Sum(s, f)
  {
    var k :| k in s;
    SumRemove(s, f, k);
    SumNonneg(s - {k}, f);
  }

  /** Non-negative terms summing to zero are all zero. */
  lemma ZeroSumNonneg(s: set<string>, f: map<string, real>)
    requires s <= f.Keys
    requires forall k :: k in s ==> 0.0 <= f[k]
    requires Sum(s, f) == 0.0
    ensures forall k :: k in s ==> f[k] == 0.0
  {
    forall y | y in s
      ensures f[y] == 0.0
    {
      SumRemove(s, f, y);
      SumNonneg(s - {y}, f);
    }
  }

  /** Non-positive terms summing to zero are all zero. */
  lemma ZeroSumNonpos(s: set<string>, f: map<string, real>)
    requires s <= f.Keys
    requires forall k :: k in s ==> f[k] <= 0.0
    requires Sum(s, f) == 0.0
    ensures forall k :: k in s ==> f[k] == 0.0
  {
    forall y | y in s
      ensures f[y] == 0.0
    {
      SumRemove(s, f, y);
      SumNonpos(s - {y}, f);
    }
  }
}

=== FILE: vose.dfy ===
/** Vose's alias method, as `ips/vose-random.go` builds and reads it.

    Probabilities are exact reals, so the rounding that the Go code mops up
    with its final drains cannot occur here: the model proves that whatever
    is left on the worklists carries exactly the average mass. Go's map
    iteration order is left open: every loop over a map whose result could
    depend on that order picks its next key with `:|`, so each
    postcondition holds for every iteration order; the division loop of
    `FlattenProbs` cannot depend on it and is a map comprehension. */
module Vose {
  import opened Sums

  /** A built sampler: the distribution it was built from, the probability of
      keeping each picked column (`table_prob`) and the key a column falls back
      to otherwise (`table_alias`). */
  datatype VoseRandom = VoseRandom(
    dist: map<string, real>,
    prob: map<string, real>,
    alias: map<string, string>)

  /** Integer weights read as reals. */
  function RealWeights(w: map<string, int>): (r: map<string, real>)
    ensures r.Keys == w.Keys
  {
    map k | k in w :: w[k] as real
  }

  /** The total of all weights. */
  ghost function TotalWeight(w: map<string, int>): real
  {
    Sum(w.Keys, RealWeights(w))
  }

  /** Non-negative values that sum to one (an empty map is also accepted: the
      Go code builds empty tables from it). */
  ghost predicate IsDistribution(dist: map<string, real>)
  {
    && (forall k :: k in dist ==> 0.0 <= dist[k])
    && (dist.Keys != {} ==> Sum(dist.Keys, dist) == 1.0)
  }

  /** Every key has the same probability. */
  ghost predicate Uniform(dist: map<string, real>)
  {
    forall x, y :: x in dist && y in dist ==> dist[x] == dist[y]
  }

  /** `FlattenProbs`: divides every weight by the total weight. */
  method FlattenProbs(dist: map<string, int>) returns (m: map<string, real>)
    requires forall k :: k in dist ==> dist[k] > 0
    ensures m.Keys == dist.Keys
    ensures dist.Keys != {} ==> 0.0 < TotalWeight(dist)
    ensures forall k :: k in dist ==> m[k] == dist[k] as real / TotalWeight(dist)
    ensures forall k :: k in dist ==> 0.0 < m[k] <= 1.0
    ensures IsDistribution(m)
  {
    var totW := SumWeights(dist);
    if dist.Keys == {} {
      return map[];
    }
    SumPositive(dist.Keys, RealWeights(dist));
    m := map r | r in dist :: dist[r] as real / totW as real;
    Normalise(RealWeights(dist), m, totW as real);
  }

  /** The first loop of `FlattenProbs`: adds up the weights in map order. */
  method SumWeights(dist: map<string, int>) returns (totW: int)
    ensures totW as real == TotalWeight(dist)
  {
    ghost var w := RealWeights(dist);
    totW := 0;
    var rest := dist.Keys;
    while rest != {}
      invariant rest <= dist.Keys
      invariant totW as real == Sum(dist.Keys - rest, w)
      decreases rest
    {
      var r :| r in rest;
      SumAdd(dist.Keys - rest, w, w, r);
      assert dist.Keys - (rest - {r}) == (dist.Keys - rest) + {r};
      totW := totW + dist[r];
      rest := rest - {r};
    }
    assert dist.Keys - rest == dist.Keys;
  }

  /** Dividing positive weights by their positive total gives a
      distribution. */
  lemma Normalise(w: map<string, real>, m: map<string, real>, t: real)
    requires forall k :: k in w ==> 0.0 < w[k]
    requires 0.0 < t && t == Sum(w.Keys, w)
    requires m.Keys == w.Keys && forall k :: k in w ==> m[k] == w[k] / t
    ensures forall k :: k in w ==> 0.0 < m[k] <= 1.0
    ensures Sum(m.Keys, m) == 1.0
  {
    forall k | k in w
      ensures 0.0 < m[k] <= 1.0
    {
      WeightBelowTotal(w, k);
      PartOfTotal(w[k], t);
    }
    NormaliseSum(w, m, t);
  }

  /** Each positive weight is at most the total. */
  lemma WeightBelowTotal(w: map<string, real>, k: string)
    requires forall k :: k in w ==> 0.0 < w[k]
    requires k in w
    ensures w[k] <= Sum(w.Keys, w)
  {
    SumRemove(w.Keys, w, k);
    SumNonneg(w.Keys - {k}, w);
  }

  /** The quotients sum to one. */
  lemma NormaliseSum(w: map<string, real>, m: map<string, real>, t: real)
    requires 0.0 < t && t == Sum(w.Keys, w)
    requires m.Keys == w.Keys && forall k :: k in w ==> m[k] == w[k] / t
    ensures Sum(m.Keys, m) == 1.0
  {
    var inv := 1.0 / t;
    forall k | k in w
      ensures m[k] == w[k] * inv
    {
      DivideByInverse(w[k], t, m[k]);
    }
    SumScale(w.Keys, w, m, inv);
    Reciprocal(t);
  }

  /** A valid table: one column per key, aliases that name other keys,
      probabilities in [0, 1], and probability 1 wherever there is no alias. */
  ghost predicate Tables(dist: map<string, real>, prob: map<string, real>, alias: map<string, string>)
  {
    && prob.Keys <= dist.Keys
    && alias.Keys <= prob.Keys
    && (forall s :: s in alias ==> alias[s] in dist && alias[s] != s)
    && (forall k :: k in prob ==> 0.0 <= prob[k] <= 1.0)
    && (forall k :: k in prob && k !in alias ==> prob[k] == 1.0)
  }

  ghost predicate WellFormed(v: VoseRandom)
  {
    v.prob.Keys == v.dist.Keys && Tables(v.dist, v.prob, v.alias)
  }

  /** For each column `k`, the measure of the draws `u` in [0, 1) for which
      `Next` on column `k` returns `x`: `[0, prob[k]]` keeps `k`, the rest of
      the interval goes to `alias[k]`. */
  function Hit(prob: map<string, real>, alias: map<string, string>, x: string): (h: map<string, real>)
    ensures h.Keys == prob.Keys
  {
    map k | k in prob ::
      (if k == x then prob[k] else 0.0)
      + (if k in alias && alias[k] == x then 1.0 - prob[k] else 0.0)
  }

  /** The mass that all columns together send to `x`: the sum over the
      columns of the part of [0, 1) on which `Next` returns `x`. */
  ghost function Mass(prob: map<string, real>, alias: map<string, string>, x: string): real
  {
    Sum(prob.Keys, Hit(prob, alias, x))
  }

  /** The table reproduces `dist`: with the column picked uniformly among the
      `n` keys, the chance that `Next` returns `x` is `dist[x]`. */
  ghost predicate Reproduces(v: VoseRandom)
  {
    ReproducesTables(v.dist, v.prob, v.alias)
  }

  /** `Reproduces`, stated on the three tables: the columns together send
      `x` the mass `n * dist[x]`. */
  ghost predicate ReproducesTables(dist: map<string, real>, prob: map<string, real>, alias: map<string, string>)
  {
    forall x {:trigger Mass(prob, alias, x)} :: x in dist ==>
      Mass(prob, alias, x) == |dist.Keys| as real * dist[x]
  }

  /** Working values in units of the average (`1/n`): how far each is above 1. */
  function Excess(q: map<string, real>): (e: map<string, real>)
    ensures e.Keys == q.Keys
  {
    map k | k in q :: q[k] - 1.0
  }

  /** `q` holds the Go code's `scaled_prob` values multiplied by `n`. */
  ghost predicate Scaled(p: map<string, real>, q: map<string, real>, n: real)
  {
    p.Keys == q.Keys && forall k {:trigger p[k]} :: k in p ==> q[k] == p[k] * n
  }

  /** Mass bookkeeping of the construction, in units of the average:
      `target[x]` (that is `n * dist[x]`) is what `x` still holds while it is
      unfinished plus what the finished columns send it. */
  ghost predicate Balanced(target: map<string, real>, q: map<string, real>, active: set<string>,
                           prob: map<string, real>, alias: map<string, string>)
    requires active <= q.Keys
  {
    forall x {:trigger Mass(prob, alias, x)} :: x in target ==>
      target[x] == (if x in active then q[x] else 0.0) + Mass(prob, alias, x)
  }

  /** Shape of the construction state: the worklists (`work`) hold each
      unfinished key once, and the finished keys are the table's columns. */
  ghost predicate Shape(dist: map<string, real>, target: map<string, real>, q: map<string, real>,
                        work: multiset<string>, active: set<string>,
                        prob: map<string, real>, alias: map<string, string>)
  {
    && target.Keys == dist.Keys && q.Keys == dist.Keys
    && work == multiset(active)
    && active !! prob.Keys && active + prob.Keys == dist.Keys
    && Tables(dist, prob, alias)
    && Balanced(target, q, active, prob, alias)
  }

  /** The pairing loop's invariant: small keys hold at most the average, large
      ones at least the average, and the excesses of the unfinished keys
      cancel out. */
  ghost predicate Pairing(dist: map<string, real>, target: map<string, real>, q: map<string, real>,
                          small: seq<string>, large: seq<string>, active: set<string>,
                          prob: map<string, real>, alias: map<string, string>)
  {
    && Shape(dist, target, q, multiset(small) + multiset(large), active, prob, alias)
    && alias.Keys == prob.Keys
    && (forall k :: k in small ==> k in q && 0.0 <= q[k] <= 1.0)
    && (forall k :: k in large ==> k in q && 1.0 <= q[k])
    && Sum(active, Excess(q)) == 0.0
  }

  /** The drains' invariant: every unfinished key holds exactly the average. */
  ghost predicate Draining(dist: map<string, real>, target: map<string, real>, q: map<string, real>,
                           work: multiset<string>, active: set<string>,
                           prob: map<string, real>, alias: map<string, string>)
  {
    && Shape(dist, target, q, work, active, prob, alias)
    && (forall k :: k in active ==> q[k] == 1.0)
  }

  /** `NewVoseRandom`: classifies the keys into `small` and `large`, pairs
      them off, and finishes the leftovers with probability 1. */
  method NewVoseRandom(dist: map<string, real>) returns (v: VoseRandom)
    requires IsDistribution(dist)
    ensures v.dist == dist
    ensures WellFormed(v)
    ensures Reproduces(v)
    ensures Uniform(dist) ==> v.alias == map[] && forall k :: k in v.prob ==> v.prob[k] == 1.0
  {
    if dist.Keys == {} {
      return VoseRandom(dist, map[], map[]);
    }
    var n := |dist.Keys| as real;
    var average := 1.0 / n;
    Reciprocal(n);
    var scaledProb, small, large := Classify(dist, average);
    ghost var target := map k | k in dist :: dist[k] * n;
    ghost var q, active;
    var tableProb, tableAlias;
    scaledProb, small, large, tableProb, tableAlias, q, active :=
      PairOff(dist, n, average, scaledProb, small, large, target);
    tableProb, active := DrainAll(small, large, tableProb, dist, n, target, q, active, tableAlias);
    Package(dist, tableProb, tableAlias);
    v := VoseRandom(dist, tableProb, tableAlias);
  }

  /** The first loop of `NewVoseRandom`: copies `dist` into `scaled_prob`
      and pushes each key on `large` when its probability exceeds the
      average, on `small` otherwise. */
  method Classify(dist: map<string, real>, average: real)
    returns (scaledProb: map<string, real>, small: seq<string>, large: seq<string>)
    ensures scaledProb == dist
    ensures multiset(small) + multiset(large) == multiset(dist.Keys)
    ensures forall k :: k in small ==> k in dist && dist[k] <= average
    ensures forall k :: k in large ==> k in dist && average < dist[k]
  {
    scaledProb, small, large := map[], [], [];
    var rest := dist.Keys;
    while rest != {}
      invariant rest <= dist.Keys
      invariant scaledProb.Keys == dist.Keys - rest
      invariant forall k :: k in scaledProb ==> scaledProb[k] == dist[k]
      invariant multiset(small) + multiset(large) == multiset(dist.Keys - rest)
      invariant forall k :: k in small ==> k in dist && dist[k] <= average
      invariant forall k :: k in large ==> k in dist && average < dist[k]
      decreases rest
    {
      var value :| value in rest;
      var prob := dist[value];
      scaledProb := scaledProb[value := prob];
      if prob > average {
        large := large + [value];
      } else {
        small := small + [value];
      }
      assert dist.Keys - (rest - {value}) == (dist.Keys - rest) + {value};
      assert multiset((dist.Keys - rest) + {value}) == multiset(dist.Keys - rest) + multiset{value};
      rest := rest - {value};
    }
    assert dist.Keys - rest == dist.Keys;
  }

  /** The pairing loop of `NewVoseRandom`, run on the classified worklists
      with empty tables; when it stops every unfinished key holds exactly
      the average. */
  method PairOff(ghost dist: map<string, real>, n: real, average: real, scaledProb: map<string, real>,
                 small: seq<string>, large: seq<string>, ghost target: map<string, real>)
    returns (scaledProb': map<string, real>, small': seq<string>, large': seq<string>,
             tableProb: map<string, real>, tableAlias: map<string, string>,
             ghost q: map<string, real>, ghost active: set<string>)
    requires IsDistribution(dist) && dist.Keys != {}
    requires n == |dist.Keys| as real && n * average == 1.0
    requires scaledProb == dist && Scaled(dist, target, n)
    requires multiset(small) + multiset(large) == multiset(dist.Keys)
    requires forall k :: k in small ==> k in dist && dist[k] <= average
    requires forall k :: k in large ==> k in dist && average < dist[k]
    ensures Draining(dist, target, q, multiset(small') + multiset(large'), active, tableProb, tableAlias)
    ensures Uniform(dist) ==> tableAlias == map[]
  {
    PairingStart(dist, n, average, target, small, large);
    scaledProb', small', large', tableProb, tableAlias, q, active :=
      scaledProb, small, large, map[], map[], target, dist.Keys;
    while |large'| > 0 && |small'| > 0
      invariant Pairing(dist, target, q, small', large', active, tableProb, tableAlias)
      invariant Scaled(scaledProb', q, n)
      invariant (forall k :: k !in large) ==> large' == large && tableAlias == map[]
      decreases |small'| + |large'|
    {
      ghost var l;
      scaledProb', small', large', tableProb, tableAlias, q, active, l :=
        PairOnce(dist, n, average, scaledProb', small', large', tableProb, tableAlias, target, q, active);
    }
    PairingEnd(dist, target, q, small', large', active, tableProb, tableAlias);
  }

  /** One round of the pairing loop with its bookkeeping: the round is a
      `RoundStep`, it keeps the loop invariant and it shrinks the
      worklists; `alias` is the large key the round used. */
  method PairOnce(ghost dist: map<string, real>, n: real, average: real, scaledProb: map<string, real>,
                  small: seq<string>, large: seq<string>,
                  tableProb: map<string, real>, tableAlias: map<string, string>,
                  ghost target: map<string, real>, ghost q: map<string, real>, ghost active: set<string>)
    returns (scaledProb': map<string, real>, small': seq<string>, large': seq<string>,
             tableProb': map<string, real>, tableAlias': map<string, string>,
             ghost q': map<string, real>, ghost active': set<string>, ghost alias: string)
    requires Pairing(dist, target, q, small, large, active, tableProb, tableAlias)
    requires Scaled(scaledProb, q, n) && n * average == 1.0 && 0.0 < n
    requires |small| > 0 && |large| > 0
    ensures Pairing(dist, target, q', small', large', active', tableProb', tableAlias')
    ensures Scaled(scaledProb', q', n)
    ensures |small'| + |large'| < |small| + |large|
    ensures alias in large
    ensures small[|small| - 1] in scaledProb && large[|large| - 1] in scaledProb
    ensures RoundStep(n, average, scaledProb, small, large, tableProb, tableAlias,
                      scaledProb', small', large', tableProb', tableAlias')
  {
    var s, l := small[|small| - 1], large[|large| - 1];
    ghost var small0, large0 := small[..|small| - 1], large[..|large| - 1];
    assert small == small0 + [s] && large == large0 + [l];
    assert s in small && l in large;
    scaledProb', small', large', tableProb', tableAlias' :=
      PairRound(n, average, scaledProb, small, large, tableProb, tableAlias);
    RoundBridge(n, average, scaledProb, small, large, tableProb, tableAlias, q,
                scaledProb', small', large', tableProb', tableAlias');
    q', active', alias := q[l := (q[l] + q[s]) - 1.0], active - {s}, l;
    PairStep(dist, target, q, small0, large0, active, tableProb, tableAlias, s, l,
             q', small', large', tableProb', tableAlias');
  }

  /** One round of the pairing loop, from (`scaledProb`, `small`, `large`,
      `tableProb`, `tableAlias`) to the primed state: the last small key
      `s` is finished with its scaled probability times `n` and with the
      last large key `l` as alias; `l` gives up what `s` lacked of the
      average and is pushed back on `small` when it fell below the average,
      on `large` otherwise. Nothing else changes. */
  ghost predicate RoundStep(n: real, average: real, scaledProb: map<string, real>,
                            small: seq<string>, large: seq<string>,
                            tableProb: map<string, real>, tableAlias: map<string, string>,
                            scaledProb': map<string, real>, small': seq<string>, large': seq<string>,
                            tableProb': map<string, real>, tableAlias': map<string, string>)
    requires |small| > 0 && |large| > 0
    requires small[|small| - 1] in scaledProb && large[|large| - 1] in scaledProb
  {
    var s, l := small[|small| - 1], large[|large| - 1];
    && s in tableProb' && tableProb'[s] == scaledProb[s] * n && tableProb' == tableProb[s := tableProb'[s]]
    && tableAlias' == tableAlias[s := l]
    && scaledProb' == scaledProb[l := (scaledProb[l] + scaledProb[s]) - average]
    && if scaledProb'[l] < average
       then small' == small[..|small| - 1] + [l] && large' == large[..|large| - 1]
       else small' == small[..|small| - 1] && large' == large[..|large| - 1] + [l]
  }

  /** The body of the pairing loop: one `RoundStep`. */
  method PairRound(n: real, average: real, scaledProb: map<string, real>,
                   small: seq<string>, large: seq<string>,
                   tableProb: map<string, real>, tableAlias: map<string, string>)
    returns (scaledProb': map<string, real>, small': seq<string>, large': seq<string>,
             tableProb': map<string, real>, tableAlias': map<string, string>)
    requires |small| > 0 && |large| > 0
    requires small[|small| - 1] in scaledProb && large[|large| - 1] in scaledProb
    ensures RoundStep(n, average, scaledProb, small, large, tableProb, tableAlias,
                      scaledProb', small', large', tableProb', tableAlias')
  {
    var s := small[|small| - 1];
    small' := small[..|small| - 1];
    var l := large[|large| - 1];
    large' := large[..|large| - 1];
    tableProb' := tableProb[s := scaledProb[s] * n];
    tableAlias' := tableAlias[s := l];
    scaledProb' := scaledProb[l := (scaledProb[l] + scaledProb[s]) - average];
    if scaledProb'[l] < average {
      small' := small' + [l];
    } else {
      large' := large' + [l];
    }
  }

  /** In units of the average, a `RoundStep` is the step `PairStep` takes:
      `s` gets its scaled value as probability, `l` holds what `s` lacked
      less, and `l` goes back on the worklist its new value selects. */
  lemma RoundBridge(n: real, average: real, scaledProb: map<string, real>,
                    small: seq<string>, large: seq<string>,
                    tableProb: map<string, real>, tableAlias: map<string, string>, q: map<string, real>,
                    scaledProb': map<string, real>, small': seq<string>, large': seq<string>,
                    tableProb': map<string, real>, tableAlias': map<string, string>)
    requires Scaled(scaledProb, q, n) && n * average == 1.0 && 0.0 < n
    requires |small| > 0 && |large| > 0
    requires small[|small| - 1] in scaledProb && large[|large| - 1] in scaledProb
    requires RoundStep(n, average, scaledProb, small, large, tableProb, tableAlias,
                       scaledProb', small', large', tableProb', tableAlias')
    ensures var s, l := small[|small| - 1], large[|large| - 1];
      Scaled(scaledProb', q[l := (q[l] + q[s]) - 1.0], n)
    ensures var s, l := small[|small| - 1], large[|large| - 1];
      tableProb' == tableProb[s := q[s]] && tableAlias' == tableAlias[s := l]
    ensures var s, l := small[|small| - 1], large[|large| - 1];
      var x := (q[l] + q[s]) - 1.0;
      || (x < 1.0 && small' == small[..|small| - 1] + [l] && large' == large[..|large| - 1])
      || (1.0 <= x && small' == small[..|small| - 1] && large' == large[..|large| - 1] + [l])
    ensures |small'| + |large'| < |small| + |large|
  {
    var s, l := small[|small| - 1], large[|large| - 1];
    ScaledStep(scaledProb, q, n, average, s, l);
  }

  /** The two final loops of `NewVoseRandom`: what is left on `large`, then
      what is left on `small`, gets probability 1; the tables are then
      complete. */
  method DrainAll(small: seq<string>, large: seq<string>, tableProb: map<string, real>,
                  ghost dist: map<string, real>, ghost n: real, ghost target: map<string, real>,
                  ghost q: map<string, real>, ghost active: set<string>, ghost tableAlias: map<string, string>)
    returns (tableProb': map<string, real>, ghost active': set<string>)
    requires Draining(dist, target, q, multiset(small) + multiset(large), active, tableProb, tableAlias)
    requires n == |dist.Keys| as real
    requires Scaled(dist, target, n)
    ensures tableProb'.Keys == dist.Keys && Tables(dist, tableProb', tableAlias)
    ensures ReproducesTables(dist, tableProb', tableAlias)
  {
    assert multiset(large) + multiset(small) == multiset(small) + multiset(large);
    tableProb', active' := Drain(large, small, tableProb, dist, target, q, active, tableAlias);
    assert multiset(small) + multiset([]) == multiset(small);
    tableProb', active' := Drain(small, [], tableProb', dist, target, q, active', tableAlias);
    Finish(dist, n, target, q, multiset([]), active', tableProb', tableAlias);
  }

  /** One final loop of `NewVoseRandom`: every key left on the worklist
      `work` gets probability 1. `other` is the other worklist. */
  method Drain(work: seq<string>, ghost other: seq<string>, tableProb: map<string, real>,
               ghost dist: map<string, real>, ghost target: map<string, real>, ghost q: map<string, real>,
               ghost active: set<string>, ghost tableAlias: map<string, string>)
    returns (tableProb': map<string, real>, ghost active': set<string>)
    requires Draining(dist, target, q, multiset(work) + multiset(other), active, tableProb, tableAlias)
    ensures Draining(dist, target, q, multiset(other), active', tableProb', tableAlias)
  {
    var rest := work;
    tableProb', active' := tableProb, active;
    while |rest| > 0
      invariant Draining(dist, target, q, multiset(rest) + multiset(other), active', tableProb', tableAlias)
      decreases |rest|
    {
      ghost var rest0 := rest;
      var g := rest[|rest| - 1];
      rest := rest[..|rest| - 1];
      assert rest0 == rest + [g];
      DrainStep(dist, target, q, multiset(rest0) + multiset(other), active', tableProb', tableAlias, g);
      assert multiset(rest0) + multiset(other) - multiset{g} == multiset(rest) + multiset(other);
      tableProb' := tableProb'[g := 1.0];
      active' := active' - {g};
    }
    assert multiset(rest) == multiset{};
  }

  /** `Next` on column `k` with the uniform draw `u`. */
  function Next(v: VoseRandom, k: string, u: real): (r: string)
    requires WellFormed(v)
    requires k in v.prob
    requires 0.0 <= u < 1.0
    ensures r in v.dist
    ensures u <= v.prob[k] ==> r == k
    ensures v.prob[k] < u ==> k in v.alias && r == v.alias[k]
  {
    if u <= v.prob[k] then k else v.alias[k]
  }

  // ---------------------------------------------------------------------
  // Proof steps of the construction

  /** Right after classification every key is unfinished and the tables are
      empty; scaled by `n`, small keys hold at most 1 and large ones more,
      and the excesses over 1 cancel because `dist` sums to 1. With all
      probabilities equal, nothing is large. */
  lemma PairingStart(dist: map<string, real>, n: real, average: real, q: map<string, real>,
                     small: seq<string>, large: seq<string>)
    requires IsDistribution(dist) && dist.Keys != {}
    requires n == |dist.Keys| as real && n * average == 1.0
    requires Scaled(dist, q, n)
    requires multiset(small) + multiset(large) == multiset(dist.Keys)
    requires forall k :: k in small ==> k in dist && dist[k] <= average
    requires forall k :: k in large ==> k in dist && average < dist[k]
    ensures Pairing(dist, q, q, small, large, dist.Keys, map[], map[])
    ensures forall k :: k in large ==> 1.0 < q[k]
    ensures Uniform(dist) ==> forall k :: k !in large
  {
    StartMass(dist, n, q);
    StartBalanced(q);
    forall k | k in small
      ensures 0.0 <= q[k] <= 1.0
    {
      ScaleCompare(dist[k], average, n);
    }
    forall k | k in large
      ensures 1.0 < q[k]
    {
      ScaleCompare(dist[k], average, n);
    }
    if Uniform(dist) {
      forall k | k in dist
        ensures dist[k] <= average
      {
        UniformSmall(dist, n, average, q, k);
      }
    }
  }

  /** With all probabilities equal, every key is at most the average, so
      classification puts it on `small`. */
  lemma UniformSmall(dist: map<string, real>, n: real, average: real, q: map<string, real>, k: string)
    requires Uniform(dist) && k in dist
    requires 0.0 < n && n * average == 1.0
    requires Scaled(dist, q, n)
    requires Sum(dist.Keys, Excess(q)) == 0.0
    ensures dist[k] <= average
  {
    StartUniform(dist, n, q, k);
    ScaleCompare(dist[k], average, n);
    var p := dist[k] * n;
    assert p == q[k];
  }

  /** Scaled by `n`, a distribution's excesses over the average cancel. */
  lemma StartMass(dist: map<string, real>, n: real, q: map<string, real>)
    requires IsDistribution(dist) && dist.Keys != {}
    requires n == |dist.Keys| as real
    requires Scaled(dist, q, n)
    ensures Sum(dist.Keys, Excess(q)) == 0.0
  {
    SumScale(dist.Keys, dist, q, n);
    SumShift(dist.Keys, q, Excess(q));
  }

  /** Before any column is finished, every key holds its whole target. */
  lemma StartBalanced(q: map<string, real>)
    ensures Balanced(q, q, q.Keys, map[], map[])
  {
    var empty: map<string, real> := map[];
    forall x | x in q
      ensures q[x] == q[x] + Mass(empty, map[], x)
    {
      assert empty.Keys == {};
    }
  }

  /** With all probabilities equal, every key holds exactly the average. */
  lemma StartUniform(dist: map<string, real>, n: real, q: map<string, real>, k: string)
    requires Uniform(dist) && k in dist
    requires Scaled(dist, q, n)
    requires Sum(dist.Keys, Excess(q)) == 0.0
    ensures q[k] == 1.0
  {
    var e := Excess(q);
    forall x | x in dist
      ensures e[x] == e[k]
    {
      var a, b := dist[x] * n, dist[k] * n;
      assert dist[x] == dist[k];
      assert a == b;
    }
    if 0.0 <= e[k] {
      ZeroSumNonneg(dist.Keys, e);
    } else {
      ZeroSumNonpos(dist.Keys, e);
    }
  }

  /** The Go code updates `scaled_prob[l]` and compares it with the average;
      in units of the average this is `q[l] + q[s] - 1` compared with 1. */
  lemma ScaledStep(p: map<string, real>, q: map<string, real>, n: real, average: real, s: string, l: string)
    requires Scaled(p, q, n) && n * average == 1.0 && 0.0 < n
    requires s in p && l in p
    ensures q[s] == p[s] * n
    ensures Scaled(p[l := (p[l] + p[s]) - average], q[l := (q[l] + q[s]) - 1.0], n)
    ensures ((p[l] + p[s]) - average < average) <==> ((q[l] + q[s]) - 1.0 < 1.0)
  {
    var a := (p[l] + p[s]) - average;
    assert a * n == p[l] * n + p[s] * n - average * n;
    ScaleCompare(a, average, n);
  }

  /** One pairing step: `s` is finished with its scaled value as probability
      and `l` as alias, and `l` gives up the mass `s` lacked. */
  lemma PairStep(dist: map<string, real>, target: map<string, real>, q: map<string, real>,
                 small: seq<string>, large: seq<string>, active: set<string>,
                 prob: map<string, real>, alias: map<string, string>, s: string, l: string,
                 q': map<string, real>, small': seq<string>, large': seq<string>,
                 prob': map<string, real>, alias': map<string, string>)
    requires Pairing(dist, target, q, small + [s], large + [l], active, prob, alias)
    requires s in q && l in q && q' == q[l := (q[l] + q[s]) - 1.0]
    requires prob' == prob[s := q[s]] && alias' == alias[s := l]
    requires || (q'[l] < 1.0 && small' == small + [l] && large' == large)
             || (1.0 <= q'[l] && small' == small && large' == large + [l])
    ensures Pairing(dist, target, q', small', large', active - {s}, prob', alias')
  {
    PairShape(small, large, active, s, l);
    PairMass(active, q, s, l);
    PairBalance(target, q, active, prob, alias, s, l);
    PairTables(dist, prob, alias, s, q[s], l);
    PairBounds(q, small, large, s, l);
  }

  /** Finishing `s` with its scaled value as probability and `l` as alias
      keeps the tables valid. */
  lemma PairTables(dist: map<string, real>, prob: map<string, real>, alias: map<string, string>,
                   s: string, a: real, l: string)
    requires Tables(dist, prob, alias) && alias.Keys == prob.Keys
    requires s in dist && l in dist && s != l && 0.0 <= a <= 1.0
    ensures Tables(dist, prob[s := a], alias[s := l])
    ensures alias[s := l].Keys == prob[s := a].Keys
  {
  }

  /** The keys left on the worklists keep their bounds: only `l` changed. */
  lemma PairBounds(q: map<string, real>, small: seq<string>, large: seq<string>, s: string, l: string)
    requires forall k :: k in small + [s] ==> k in q && 0.0 <= q[k] <= 1.0
    requires forall k :: k in large + [l] ==> k in q && 1.0 <= q[k]
    requires l !in small && l !in large
    ensures s in q && l in q
    ensures forall k :: k in small ==> k in q[l := (q[l] + q[s]) - 1.0] && 0.0 <= q[l := (q[l] + q[s]) - 1.0][k] <= 1.0
    ensures forall k :: k in large ==> k in q[l := (q[l] + q[s]) - 1.0] && 1.0 <= q[l := (q[l] + q[s]) - 1.0][k]
  {
    assert s in small + [s] && l in large + [l];
    forall k | k in small
      ensures k in q && 0.0 <= q[k] <= 1.0
    {
      assert k in small + [s];
    }
    forall k | k in large
      ensures k in q && 1.0 <= q[k]
    {
      assert k in large + [l];
    }
  }

  /** Popping `s` and `l` and pushing `l` back keeps every unfinished key on
      the worklists exactly once. */
  lemma PairShape(small: seq<string>, large: seq<string>, active: set<string>, s: string, l: string)
    requires multiset(small + [s]) + multiset(large + [l]) == multiset(active)
    ensures s in active && l in active && s != l
    ensures l !in small && l !in large
    ensures multiset(small + [l]) + multiset(large) == multiset(active - {s})
    ensures multiset(small) + multiset(large + [l]) == multiset(active - {s})
  {
    assert multiset(small + [s]) == multiset(small) + multiset{s};
    assert multiset(large + [l]) == multiset(large) + multiset{l};
    assert s in multiset(active) && l in multiset(active);
    assert multiset(active)[l] == 1;
    assert (multiset(small) + multiset{s} + multiset(large) + multiset{l})[s] >= (if s == l then 2 else 1);
    assert multiset(small)[l] == 0 && multiset(large)[l] == 0;
    assert multiset(active - {s}) == multiset(active) - multiset{s};
    assert multiset(small + [l]) == multiset(small) + multiset{l};
  }

  /** The excesses of the unfinished keys still cancel after a pairing step. */
  lemma PairMass(active: set<string>, q: map<string, real>, s: string, l: string)
    requires active <= q.Keys && s in active && l in active && s != l
    requires Sum(active, Excess(q)) == 0.0
    ensures Sum(active - {s}, Excess(q[l := (q[l] + q[s]) - 1.0])) == 0.0
  {
    var e := Excess(q);
    var e' := Excess(q[l := (q[l] + q[s]) - 1.0]);
    SumRemove(active, e, s);
    SumRemove(active - {s}, e, l);
    SumRemove(active - {s}, e', l);
    SumAgree(active - {s} - {l}, e, e');
  }

  /** Every key keeps its target mass across a pairing step. */
  lemma PairBalance(target: map<string, real>, q: map<string, real>, active: set<string>,
                    prob: map<string, real>, alias: map<string, string>, s: string, l: string)
    requires active <= q.Keys && s in active && l in active && s != l
    requires s !in prob && alias.Keys <= prob.Keys
    requires Balanced(target, q, active, prob, alias)
    ensures Balanced(target, q[l := (q[l] + q[s]) - 1.0], active - {s}, prob[s := q[s]], alias[s := l])
  {
    var q' := q[l := (q[l] + q[s]) - 1.0];
    var prob' := prob[s := q[s]];
    var alias' := alias[s := l];
    forall x | x in target
      ensures target[x] == (if x in active - {s} then q'[x] else 0.0) + Mass(prob', alias', x)
    {
      FinishColumn(prob, alias, s, q[s], l, x);
    }
  }

  /** Finishing column `s` with probability `a` and alias `l` adds that
      column's share to the mass every key receives. */
  lemma FinishColumn(prob: map<string, real>, alias: map<string, string>, s: string, a: real, l: string, x: string)
    requires s !in prob && alias.Keys <= prob.Keys
    ensures Mass(prob[s := a], alias[s := l], x)
            == Mass(prob, alias, x)
               + (if x == s then a else 0.0) + (if x == l then 1.0 - a else 0.0)
  {
    var h := Hit(prob, alias, x);
    var h' := Hit(prob[s := a], alias[s := l], x);
    assert (prob[s := a]).Keys == prob.Keys + {s};
    SumAdd(prob.Keys, h, h', s);
  }

  /** Finishing a column without alias at probability 1 adds 1 to the mass
      of that column's own key. */
  lemma FinishAlone(prob: map<string, real>, alias: map<string, string>, g: string, x: string)
    requires g !in prob && alias.Keys <= prob.Keys
    ensures Mass(prob[g := 1.0], alias, x)
            == Mass(prob, alias, x) + (if x == g then 1.0 else 0.0)
  {
    var h := Hit(prob, alias, x);
    var h' := Hit(prob[g := 1.0], alias, x);
    assert (prob[g := 1.0]).Keys == prob.Keys + {g};
    SumAdd(prob.Keys, h, h', g);
  }

  /** One drain step: a leftover key holding exactly the average is finished
      with probability 1 and no alias. */
  lemma DrainStep(dist: map<string, real>, target: map<string, real>, q: map<string, real>,
                  work: multiset<string>, active: set<string>,
                  prob: map<string, real>, alias: map<string, string>, g: string)
    requires Draining(dist, target, q, work, active, prob, alias)
    requires g in work
    ensures Draining(dist, target, q, work - multiset{g}, active - {g}, prob[g := 1.0], alias)
  {
    DrainShape(work, active, g);
    DrainBalance(target, q, active, prob, alias, g);
    DrainTables(dist, prob, alias, g);
    assert active - {g} !! prob[g := 1.0].Keys;
    assert (active - {g}) + prob[g := 1.0].Keys == dist.Keys;
  }

  /** A column finished with probability 1 keeps the tables valid. */
  lemma DrainTables(dist: map<string, real>, prob: map<string, real>, alias: map<string, string>, g: string)
    requires Tables(dist, prob, alias) && g in dist && g !in prob
    ensures Tables(dist, prob[g := 1.0], alias)
  {
  }

  /** Taking `g` off the worklists takes it out of the unfinished keys. */
  lemma DrainShape(work: multiset<string>, active: set<string>, g: string)
    requires work == multiset(active) && g in work
    ensures g in active
    ensures work - multiset{g} == multiset(active - {g})
  {
    assert multiset(active - {g}) == multiset(active) - multiset{g};
  }

  /** Every key keeps its target mass across a drain step. */
  lemma DrainBalance(target: map<string, real>, q: map<string, real>, active: set<string>,
                     prob: map<string, real>, alias: map<string, string>, g: string)
    requires active <= q.Keys && g in active && q[g] == 1.0
    requires g !in prob && alias.Keys <= prob.Keys
    requires Balanced(target, q, active, prob, alias)
    ensures Balanced(target, q, active - {g}, prob[g := 1.0], alias)
  {
    var prob' := prob[g := 1.0];
    forall x | x in target
      ensures target[x] == (if x in active - {g} then q[x] else 0.0) + Mass(prob', alias, x)
    {
      FinishAlone(prob, alias, g, x);
    }
  }

  /** When the pairing loop stops, one worklist is empty, and the excesses of
      the other cancel with one sign: all of them are zero. */
  lemma PairingEnd(dist: map<string, real>, target: map<string, real>, q: map<string, real>,
                   small: seq<string>, large: seq<string>, active: set<string>,
                   prob: map<string, real>, alias: map<string, string>)
    requires Pairing(dist, target, q, small, large, active, prob, alias)
    requires |small| == 0 || |large| == 0
    ensures Draining(dist, target, q, multiset(small) + multiset(large), active, prob, alias)
  {
    Settled(q, small, large, active);
  }

  /** With one worklist empty, the excesses left all have one sign and
      cancel, so each is zero. */
  lemma Settled(q: map<string, real>, small: seq<string>, large: seq<string>, active: set<string>)
    requires active <= q.Keys
    requires multiset(small) + multiset(large) == multiset(active)
    requires forall k :: k in small ==> k in q && 0.0 <= q[k] <= 1.0
    requires forall k :: k in large ==> k in q && 1.0 <= q[k]
    requires Sum(active, Excess(q)) == 0.0
    requires |small| == 0 || |large| == 0
    ensures forall k :: k in active ==> q[k] == 1.0
  {
    var e := Excess(q);
    if |large| == 0 {
      assert multiset(small) == multiset(active);
      forall k | k in active
        ensures e[k] <= 0.0
      {
        assert k in multiset(small);
      }
      ZeroSumNonpos(active, e);
    } else {
      assert multiset(large) == multiset(active);
      forall k | k in active
        ensures 0.0 <= e[k]
      {
        assert k in multiset(large);
      }
      ZeroSumNonneg(active, e);
    }
  }

  /** Once both worklists are drained every key is a finished column, and the
      bookkeeping is exactly the reproduction property. */
  lemma Finish(dist: map<string, real>, n: real, target: map<string, real>, q: map<string, real>,
               work: multiset<string>, active: set<string>,
               prob: map<string, real>, alias: map<string, string>)
    requires Draining(dist, target, q, work, active, prob, alias)
    requires work == multiset{}
    requires n == |dist.Keys| as real
    requires Scaled(dist, target, n)
    ensures prob.Keys == dist.Keys && Tables(dist, prob, alias)
    ensures ReproducesTables(dist, prob, alias)
  {
    FinishKeys(dist, target, q, work, active, prob, alias);
    forall x | x in dist
      ensures Mass(prob, alias, x) == |dist.Keys| as real * dist[x]
    {
      assert target[x] == Mass(prob, alias, x);
    }
  }

  /** Empty worklists mean no unfinished key is left. */
  lemma FinishKeys(dist: map<string, real>, target: map<string, real>, q: map<string, real>,
                   work: multiset<string>, active: set<string>,
                   prob: map<string, real>, alias: map<string, string>)
    requires Draining(dist, target, q, work, active, prob, alias)
    requires work == multiset{}
    ensures active == {} && prob.Keys == dist.Keys
  {
    assert |active| == |multiset(active)| == 0;
  }

  /** The finished tables, packaged as a sampler. */
  lemma Package(dist: map<string, real>, prob: map<string, real>, alias: map<string, string>)
    requires prob.Keys == dist.Keys && Tables(dist, prob, alias)
    requires ReproducesTables(dist, prob, alias)
    ensures WellFormed(VoseRandom(dist, prob, alias))
    ensures Reproduces(VoseRandom(dist, prob, alias))
  {
  }

  /** Comparing with the average is comparing with 1 after scaling by `n`. */
  lemma ScaleCompare(a: real, average: real, n: real)
    requires 0.0 < n && n * average == 1.0
    ensures (a <= average) <==> (a * n <= 1.0)
    ensures (a < average) <==> (a * n < 1.0)
    ensures (0.0 <= a) <==> (0.0 <= a * n)
  {
    var an := a * n;
    var dn := (a - average) * n;
    var one := average * n;
    assert one == 1.0;
    assert dn == an - one;
    MulSign(a - average, n);
    MulSign(a, n);
    assert (a < average) <==> dn < 0.0;
    assert (a == average) <==> dn == 0.0;
  }

  /** Multiplying by a positive number keeps the sign. */
  lemma MulSign(x: real, n: real)
    requires 0.0 < n
    ensures (x < 0.0) <==> (x * n < 0.0)
    ensures (x == 0.0) <==> (x * n == 0.0)
  {
    if x < 0.0 {
      assert (-x) * n > 0.0;
    } else if x > 0.0 {
      assert x * n > 0.0;
    }
  }

  /** `n` times its reciprocal is one. */
  lemma Reciprocal(n: real)
    requires 0.0 < n
    ensures n * (1.0 / n) == 1.0
  {
  }

  /** Dividing by `t` is multiplying by its reciprocal. */
  lemma DivideByInverse(a: real, t: real, r: real)
    requires 0.0 < t && r == a / t
    ensures r == a * (1.0 / t)
  {
  }

  /** A positive part of a total is at most the whole. */
  lemma PartOfTotal(a: real, t: real)
    requires 0.0 < a <= t
    ensures 0.0 < a / t <= 1.0
  {
    var r := a / t;
    assert r * t == a;
    MulSign(r, t);
    MulSign(r - 1.0, t);
    var d := (r - 1.0) * t;
    assert d == r * t - t;
  }
}

=== FILE: wrappers.dfy ===
/** Optional values, standing in for Go's `(value, ok)` pairs and nil pointers. */
module Wrappers {

  datatype Option<+T> = None | Some(value: T)
}
